=== FILE: README.md ===
# Cognivus backend core, modelled in Dafny

This project models the decision logic of the Cognivus education back end, which is an Express service over a hosted relational store and a hosted object store. The model covers the following components:

- **The report attachment manager** (`Reports`, src/models/reports.js).
  - Each grade owns at most one `tbreport_files` row, as long as only `createOrReplace` writes them: a grade has no row before its first upload, and `create` adds a row without looking for one (`Reports.CreateBreaksSingleSlot`).
  - The bucket is not kept in step with the rows. A removal of the old object that the storage refuses, or an old row with a falsy path, leaves the old object beside the new one. A URL lookup or row write that fails after the upload leaves the new object without a row.
  - `createOrReplace` looks the grade's rows up and removes the old object. It then uploads under `studentid/test_type_<timestamp>` and either inserts a row or rewrites path and URL on the existing rows.
  - `create` always inserts.
  - `delete` only removes the object.
  - The manager is modelled as a transition over a `Store` (table rows plus the object paths of each bucket). How each backend call turns out is a parameter.
- **The grade and course handlers** (`Grades`, `Courses`).
  - Grades attach at most one report. It is replaced only when the request carries a non-empty file list, and only the first report file is removed on delete.
  - Courses attach one file per upload, in order, and remove every attached file on delete.
- **The allow-list sanitizer** (`Payload`, src/helper/payload.js). It feeds the required-field checks of both controllers.
- **The authentication decisions**:
  - `AuthController`: role mapping, and the register, login, profile, logout and OAuth-callback ladders;
  - `AuthMiddleware`: the environment bypass, bearer-token extraction and the verify outcome.
- **The not-found classification of a report-file lookup** (`ReportFiles`).

Every handler is a pure function. It takes the pieces of the request it reads and an `Answers` oracle (`Http.Answers`). The oracle stands for everything it calls but does not own: the query client, the course-file and report managers as the handlers see them, password hashing and comparison, and token signing. Each handler returns a `Handled` value: the response (status and JSON body) and the backend calls made, in order.

A `Js` module gives the slice of JavaScript semantics the code depends on:

- truthiness;
- `||`;
- property reads that throw a TypeError on `null`/`undefined`;
- `for ... of`;
- `String(v)`.

`Text` gives the string built-ins:

- `trim`;
- ASCII `toLowerCase`;
- `includes`;
- `split(' ')`;
- decimal rendering;
- `parseInt(s, 10)`.

Some behaviour of the code is easy to misread; the model follows the code:

- `reports.create` makes no compensating removal of the uploaded object when the row insert fails (`Reports.Create`). The object is left behind.
- `reports.delete` leaves the `tbreport_files` row in place (`Reports.Delete`). Grade delete removes at most the first report file (`Grades.Delete`).
- A failed removal of the old object during `createOrReplace` is fatal when the storage call throws, and ignored when it returns an error. `Reports.StorageEffect` tells the two apart.
- Under `NODE_ENV=test` every key `createOrReplace` builds for one student and test type is the same (`Reports.PathUniqueness`). `create` stamps the clock reading whatever the environment.
- The middleware never answers 403, and a successful login answers 200 with `{ token, user }` and no `success` field. The project's tests expect otherwise.
- A grade update replaces the report only when `req.file.length > 0` (`Grades.ReplaceWanted`). A single uploaded-file object that has no `length` property never triggers the replacement.

## Model

| member | source | states |
|---|---|---|
| Reports.PathUniqueness | src/models/reports.js:36-37 | two keys for one student and test type coincide exactly when NODE_ENV is `test` or the clock readings are equal |
| Reports.RowsOf | src/models/reports.js:11-14 | the lookup returns only rows of the grade, and is non-empty exactly when the table holds such a row |
| Reports.RowsOfConcat | src/models/reports.js:11-14 | the lookup is the order-preserving filter: over a table in two parts it is the first part's result followed by the second's |
| Reports.RowsOfSingle | src/models/reports.js:11-14 | a one-row table yields its row exactly when the row belongs to the grade |
| Reports.RowsOfComplete | src/models/reports.js:11-14 | every row of the grade is returned |
| Reports.CreateOrReplace | src/models/reports.js:5-71 | a missing grade throws before any call; a failed lookup throws before any storage call or row write; the first call is the lookup; an old object with a truthy path is removed before the upload; every upload uses the built key and no removal follows it; rows change only on success |
| Reports.CreateOrReplaceInserts | src/models/reports.js:38-55 | with no row for the grade, exactly one row with the grade, student, new key and public URL is appended and returned, the object is stored, and the calls are lookup, upload, URL, insert |
| Reports.CreateOrReplaceUpdates | src/models/reports.js:57-69 | with rows for the grade, nothing is inserted; those rows get the new key and URL, every other row and the row count stay the same; the old object is gone unless the new key equals it |
| Reports.CreateOrReplaceRows | src/models/reports.js:41-69 | a success leaves the table with the new row appended when the grade had none, and with the grade's rows re-keyed otherwise |
| Reports.AppendKeepsSingleSlot | src/models/reports.js:41-55 | appending a row for a grade without one keeps one row per grade and gives that grade exactly one |
| Reports.RepathKeepsSingleSlot | src/models/reports.js:57-69 | re-keying a grade's row keeps one row per grade and leaves that grade exactly one |
| Reports.CreateOrReplaceKeepsSingleSlot | src/models/reports.js:41-69 | at most one row per grade is preserved, and after success the grade has exactly one row |
| Reports.ReplaceTwice | src/models/reports.js:5-71 | two successive replacements leave one row for the grade, carrying the second key and URL, with the table size unchanged |
| Reports.Create | src/models/reports.js:73-91 | never looks up or removes; a missing grade or file throws before any call; it succeeds exactly when the upload does not throw and the URL lookup and insert succeed, and then its calls are upload, URL, insert and it appends exactly the returned row with the grade, student, clock-stamped key and URL; a failed insert after a stored upload leaves the object in the bucket |
| Reports.CreateBreaksSingleSlot | src/models/reports.js:73-91 | a second `create` for a grade that already has a row yields two rows for that grade |
| Reports.Delete | src/models/reports.js:94-99 | rows are never touched; only `file.path` in the named bucket can disappear; a storage error is returned, not thrown; the call throws exactly for a missing file or a throwing storage call |
| Payload.CleanIsBlankToNull | src/helper/payload.js:11-32 | a value survives exactly when it is null or a scalar, and a blank string becomes null while other values are kept unchanged |
| Payload.Sanitized | src/helper/payload.js:1-38 | output keys are allowed keys present in the input; a present allowed field is kept iff its value is null, a string, a number or a boolean; kept values are the input values with blank strings made null |
| Payload.Sanitize | src/helper/payload.js:1-38 | the field-by-field loop computes the same map as the declarative definition |
| Payload.SanitizeBody | src/helper/payload.js:83-90 | anything but a plain object sanitizes to the empty map; otherwise the entity's allow-list is applied |
| Payload.Allowed | src/helper/payload.js:40-80 | the per-entity allow-lists; the grade list admits `test_type` and the course list `title`, so the required-field checks can pass, while neither admits its own key `gradeid` or `courseid` |
| Payload.SanitizeIdempotent | src/helper/payload.js:1-38 | sanitizing a sanitized map changes nothing |
| Payload.RequiredFieldCheck | src/controllers/grades.js:42-50 | the truthiness test on a sanitized required field passes exactly when the raw body carries a non-blank string, a non-zero number or `true` for it |
| Payload.Provides | src/controllers/courses.js:42-50 | the required-field test used by both controllers, characterised on the raw body |
| Http.Fetch | src/controllers/grades.js:7-21 | a plain read makes its one query; 200 with the query's rows exactly when it succeeds, otherwise a 500 with the handler's message and the query's error |
| Grades.GetAll | src/controllers/grades.js:7-21 | one select of all grades; 200 with its rows exactly when it succeeds, otherwise "Error fetching grade" |
| Grades.GetById | src/controllers/grades.js:23-38 | the grades are selected by `studentid`, not by grade id; 200 with the rows exactly when the select succeeds |
| Grades.Create | src/controllers/grades.js:40-74 | 400 without calls exactly when the body lacks a usable test type; otherwise the sanitized insert first; a successful insert without a file answers 201 with no upload; the report manager is called exactly for a present file and a present insert result, with its first row even when that row is missing, and its successful answer on a present row gives a 201 listing it; every 500 carries the thrown error: the insert's, the TypeError of the handler's `data[0]` on a missing result, the TypeError the manager throws reading `studentid` of a missing row, or the manager's own |
| Grades.AttachReport | src/controllers/grades.js:56-60 | the manager is called exactly when the insert result is present, with its first row; a missing result answers 500 with the index TypeError and no call; a missing row answers 500 with the TypeError of reading its `studentid`, without the manager's answer; otherwise a failed upload answers 500 with its error, a successful one a 201 that lists its answer |
| Grades.Update | src/controllers/grades.js:76-104 | the report is replaced exactly when the update succeeded, the file list is truthy with a positive length, and the update returned a result; `createOrReplace` gets the first row even when it is missing, and then answers 500 with the TypeError of reading its grade id; a missing result answers 500 with the handler's own index TypeError; every 500 carries the thrown error; never 404; without a wanted replacement the 201 lists no upload |
| Grades.Delete | src/controllers/grades.js:106-135 | 404 with no file touched exactly when nothing was deleted; once the deleted row's report-file list is read, its first entry is handed to the manager exactly when the list is truthy; 200 exactly when the row is gone, the list was read and any removal succeeded; every 500 carries the thrown error: the query's, the TypeError of a missing row or missing file, or the manager's |
| Grades.DeleteWithoutReportFails | src/controllers/grades.js:121-122 | a deleted grade with an empty report-file list passes `undefined` to the report manager and answers 500 |
| Grades.EmptyReportList | src/controllers/grades.js:121-122 | for every such grade, the handler as written answers 500 after the removal attempt, and the guarded handler answers 200 with the delete as its only call |
| Grades.DeleteChecked | src/controllers/grades.js:106-135 | once the report-file list is read, the manager is called exactly when the list has a present first file, and with that file; 200 exactly when the row is gone, the list was read and any removal succeeded; a 500 carries the failed call's error |
| Courses.UploadEach | src/controllers/courses.js:56-62 | one upload per file, in order, each bound to the first row, stopping at the first failure; on success the results are the manager's answers in file order |
| Courses.AttachFiles | src/controllers/courses.js:56-69 | the shared tail of create and update: the uploads are one per listed file, in order, on the first row; a 201 carries the first row and one upload result per file in order; a 500 comes only from a non-iterable list, a missing result or a failed last upload |
| Courses.UploadsReportedAllOk | src/controllers/courses.js:56-69 | for a create or update whose result and file list are present, uploads that all succeed answer 201 after exactly one upload per file |
| Courses.GetAll | src/controllers/courses.js:7-21 | one select of all courses; 200 with its rows exactly when it succeeds, otherwise "Error fetching course" |
| Courses.GetById | src/controllers/courses.js:23-38 | the course is selected by `courseid`; 200 with the rows exactly when the select succeeds |
| Courses.Create | src/controllers/courses.js:40-77 | 400 without calls exactly when the body lacks a usable title; otherwise the sanitized insert first; a failed insert uploads nothing; after a successful insert the uploads are reported as for `AttachFiles` |
| Courses.Update | src/controllers/courses.js:79-114 | 404 with no upload exactly when the update matched no row; otherwise the uploads are reported as for `AttachFiles`; an update never removes an attached file |
| Courses.DeleteEach | src/controllers/courses.js:128-131 | one removal per attached file, in order, stopping at the first failure; success exactly when every removal succeeded |
| Courses.RemoveAll | src/controllers/courses.js:129-136 | the removals are the attached files in order; 200 exactly when every removal succeeded, after one removal per file; otherwise 500 with the failed removal's error |
| Courses.Delete | src/controllers/courses.js:116-144 | 404 with no removal exactly when nothing was deleted; every removal is of an attached file, in list order; a 200 removed each attached file exactly once, and none when the list is absent; a 500 comes only from a failed query, a missing row, a non-iterable list or a failed last removal, and carries that error |
| Courses.DeleteAllOk | src/controllers/courses.js:116-144 | a deleted course whose attached files are all removed without error answers 200, after exactly one removal per file |
| AuthController.RoleOfNumber | src/controllers/auth.js:7-17 | a number 1..5 maps to the role with that id, every other number to student |
| AuthController.KeyOfNumber | src/controllers/auth.js:7-13 | the mapping holds a role under a number's rendering exactly for 1..5, and that role's id is the number |
| AuthController.MapRole | src/controllers/auth.js:15-18 | numbers map as `RoleOfNumber`; a string maps like the number `parseInt` reads from it, and NaN maps to student; booleans, null and undefined map to student |
| AuthController.MapRoleRoundTrip | src/controllers/auth.js:7-18 | each role's own id maps back to that role, as a number and as a string |
| AuthController.MapRoleOfText | src/controllers/auth.js:16 | a string id maps like the number `parseInt` reads from it, whatever blank prefix and non-digit suffix surround it |
| AuthController.MapRoleOfWord | src/controllers/auth.js:15-17 | an id that starts with neither whitespace, a sign nor a digit, such as a role name in any case, reads as NaN and maps to student |
| AuthController.RequestedRole | src/controllers/auth.js:22 | the role id defaults to 1 only when it is undefined |
| AuthController.Register | src/controllers/auth.js:20-45 | 400 without any call exactly when email, username or password is falsy; the password is hashed first and only the hash is signed up; a sign-up error becomes a 400 with its message; a hashing failure is a 500 |
| AuthController.Login | src/controllers/auth.js:47-84 | 400 without calls on a missing username or password; an unknown user and a wrong password both answer 401 "Invalid credentials"; a found user's password is always compared, and a token is signed exactly after a matching password, for that row's claims; a 200 returns the signed token and exactly the signed claims; a 500 carries the comparison's or the signing's error |
| AuthController.LoginRoleIsKnown | src/controllers/auth.js:67-79 | the role claim of a successful login is one of the five role names |
| AuthController.GetProfile | src/controllers/auth.js:86-103 | an authenticated user is returned unchanged without calls; with no user and no id it answers 400; with no user and a present id it makes exactly one select by `userid`, answering 200 with its rows or 500 with its error |
| AuthController.Logout | src/controllers/auth.js:105-113 | one sign-out; 200 exactly when it succeeds |
| AuthController.GoogleCallback | src/controllers/auth.js:115-130 | 400 without calls exactly when no user is attached; otherwise one token signed with role `roleId || roleid || 1`, and the response echoes the user |
| AuthMiddleware.BearerToken | src/middleware/auth.js:17-18 | a falsy header is the token itself; a string header yields its second space-separated piece; a non-string header throws |
| AuthMiddleware.Authenticate | src/middleware/auth.js:4-51 | development and test always pass with the fixed user; otherwise a request passes exactly with a non-empty token whose verification returns a truthy payload, which becomes the user; refusals are 401, or 500 with the TypeError for an unsplittable header, never 403; each 401 names its cause: "Access token required" for no header, no second piece or an empty one, "Invalid token format" when the verifier throws, "Invalid or expired token" for a falsy payload |
| AuthMiddleware.BearerTokenOfScheme | src/middleware/auth.js:18 | `<scheme> <token>` yields the token for space-free scheme and token |
| AuthMiddleware.AcceptsVerifiedBearer | src/middleware/auth.js:17-37 | a well-formed bearer header with an accepted token passes with the token's payload |
| AuthMiddleware.RefusesBareToken | src/middleware/auth.js:17-25 | a header without a space carries no token and answers 401 "Access token required" |
| ReportFiles.GetAll | src/controllers/report_files.js:4-23 | one select of all report files; 200 with its rows exactly when it succeeds, otherwise "Error fetching report" |
| ReportFiles.IsNotFound | src/controllers/report_files.js:39 | the test holds exactly for code `PGRST116` or a string message that contains "no rows" once lower-cased; it throws for a message that is neither a string nor null/undefined |
| ReportFiles.GetById | src/controllers/report_files.js:26-59 | 200 with the row exactly when the query succeeds; 404 "Report not found" without an error field exactly for the no-row error; every other error is a 500, carrying the query's error when the message could be inspected |
| ReportFiles.NotFoundIgnoresCase | src/controllers/report_files.js:39 | a message containing "No Rows" in any surrounding text is classified as not found |
| Text.TrimEmptyIffBlank | src/helper/payload.js:24 | `trim()` yields the empty string exactly for a string made only of whitespace |
| Text.IncludesIffOccurs | src/controllers/report_files.js:39 | the left-to-right `includes` scan succeeds exactly when the needle occurs at some position |
| Text.SplitJoin | src/middleware/auth.js:18 | splitting space-free pieces joined with single spaces gives the pieces back |
| Text.JoinSplit | src/middleware/auth.js:18 | `split(' ')` loses nothing: joining its pieces with single spaces gives the header back |
| Text.ParseRendered | src/controllers/auth.js:16 | `parseInt` reads a rendered number back after leading whitespace, ignoring a suffix that does not start with a digit |

## Left out

- The query client's builder chaining and the shape-sniffing of its results (src/models/reports.js:15-25). Each query is one call with an ok-or-error answer.
- The storage module and the storage client are not part of this model. Upload, remove and public-URL calls are outcomes on a set of paths per bucket: performed, error returned, or error thrown.
- The course-file manager (models/course.js) is not part of this model. Its create and delete calls are answers of the oracle.
- Password hashing and comparison, token signing and token verification are uninterpreted. They are answers of the oracle, or a `verify` function for the middleware.
- The clock and `NODE_ENV` are parameters.
- Concurrency is not modelled: the race between concurrent `createOrReplace` calls for one grade. Every operation runs alone.
- Numbers are integers. NaN, fractions, exponent renderings and values beyond the safe-integer range are not modelled, and `parseInt` of very long digit strings is exact here.
- `toLowerCase` is modelled for ASCII letters only.
- The single-row refusal of `.single()` is not modelled. An update of several rows for one grade returns the grade's first row.
- Prototype properties of the role map are not modelled. A role id that renders as an inherited member name, such as `toString`, maps to student here rather than to that member.
- `file.length > 0` is modelled for number, boolean, `null` and `undefined` lengths (`Js.Positive`). A string or array length, such as `"3"` or `[3]`, is not converted to a number the way JavaScript's `>` converts it, and counts as not positive.
- `console.log` is left out, and so are Express's request and response objects. A handler reads only the request fields it uses.
- A throwing `next()` inside the middleware's inner `try` is not modelled.
- The sign-up call's own throw is not modelled. A sign-up error is the returned error (400); a throwing sign-up would answer 500.
- The thin CRUD controllers for programs, levels and classes are left out, and so are the test files.

## Findings

| source | as written | input that shows it | evidently intended | confidence | as-written member | corrected member |
|---|---|---|---|---|---|---|
| src/controllers/grades.js:121-122 | the report manager is called whenever the deleted row's report-file list is truthy, even when the list is empty | a deleted grade row whose `tbreport_files` is `[]`: the manager reads `path` of `undefined`, throws, and the handler answers 500 after the grade row is already gone | call the manager only when the grade has a first report file, and answer 200 otherwise | medium, not executed | Grades.DeleteWithoutReportFails | Grades.DeleteChecked |

=== FILE: auth.dfy ===
/** The authentication handlers (src/controllers/auth.js): registration through
    the hosted auth service, login against the app's user table with a signed
    token, the profile lookup, logout and the OAuth callback. */
module AuthController {
  import opened Maybe
  import opened Js
  import opened Http
  import Text

  // ---------------------------------------------------------------------------
  // Roles
  // ---------------------------------------------------------------------------

  /** The roles a token can carry. */
  datatype Role = Student | Lecturer | Moderator | Admin | Owner

  /** The role name written into a token. */
  function RoleName(r: Role): string {
    match r
    case Student => "student"
    case Lecturer => "lecturer"
    case Moderator => "moderator"
    case Admin => "admin"
    case Owner => "owner"
  }

  /** The role id the user table stores for a role. */
  function RoleNumber(r: Role): nat {
    match r
    case Student => 1
    case Lecturer => 2
    case Moderator => 3
    case Admin => 4
    case Owner => 5
  }

  /** `roleMapping`: the own properties of the mapping object, by key. */
  function RoleAtKey(key: string): Option<Role> {
    if key == "1" then Some(Student)
    else if key == "2" then Some(Lecturer)
    else if key == "3" then Some(Moderator)
    else if key == "4" then Some(Admin)
    else if key == "5" then Some(Owner)
    else None
  }

  /** The property key `roleMapping[roleId]` reads: a string id is first run
      through `parseInt(roleId, 10)`, and NaN is the key "NaN"; any other value
      is converted with `String`. */
  function RoleKey(roleId: Json): string {
    if roleId.JStr? then ParsedKey(roleId.s) else ToText(roleId)
  }

  /** The key of a string id: the number `parseInt` reads, or "NaN". */
  function ParsedKey(s: string): string {
    match Text.ParseInt10(s)
    case None => "NaN"
    case Some(n) => Text.IntToText(n)
  }

  /** `roleMapping[n] || 'student'` for a number `n`. */
  function RoleOfNumber(n: int): (r: Role)
    ensures 1 <= n <= 5 ==> RoleNumber(r) == n
    ensures !(1 <= n <= 5) ==> r == Student
  {
    KeyOfNumber(n);
    match RoleAtKey(Text.IntToText(n))
    case Some(r) => r
    case None => Student
  }

  /** The mapping holds a role under the rendering of a number exactly when
      the number is 1..5, and that role's id is the number. */
  lemma KeyOfNumber(n: int)
    ensures RoleAtKey(Text.IntToText(n)).Some? <==> 1 <= n <= 5
    ensures 1 <= n <= 5 ==> RoleNumber(RoleAtKey(Text.IntToText(n)).value) == n
  {
    if 1 <= n <= 5 {
      assert Text.IntToText(n) == [Text.DigitChar(n)];
    } else if n >= 0 {
      Text.NatToTextInjective(n, 1);
      Text.NatToTextInjective(n, 2);
      Text.NatToTextInjective(n, 3);
      Text.NatToTextInjective(n, 4);
      Text.NatToTextInjective(n, 5);
    } else {
      assert |Text.IntToText(n)| >= 2;
    }
  }

  /** `mapRole(roleId)`: the role a stored or claimed role id stands for. */
  function MapRole(roleId: Json): (r: Role)
    // ids 1..5 map to their own role, every other number to student
    ensures roleId.JNum? ==> r == RoleOfNumber(roleId.n)
    ensures roleId.JNum? && 1 <= roleId.n <= 5 ==> RoleNumber(r) == roleId.n
    ensures roleId.JNum? && !(1 <= roleId.n <= 5) ==> r == Student
    // a string is read through `parseInt` first, and NaN maps to student
    ensures roleId.JStr? && Text.ParseInt10(roleId.s).Some? ==> r == RoleOfNumber(Text.ParseInt10(roleId.s).value)
    ensures roleId.JStr? && Text.ParseInt10(roleId.s).None? ==> r == Student
    // booleans, null and undefined render to no key of the mapping
    ensures roleId.JBool? || Nullish(roleId) ==> r == Student
  {
    match RoleAtKey(RoleKey(roleId))
    case Some(r) => r
    case None => Student
  }

  /** Every role's own id maps back to it, as a number and as a string. */
  lemma MapRoleRoundTrip(r: Role)
    ensures MapRole(JNum(RoleNumber(r))) == r
    ensures MapRole(JStr(Text.NatToText(RoleNumber(r)))) == r
  {
    Text.ParseText(RoleNumber(r));
  }

  /** A string id maps like the number `parseInt` reads from it, so padding
      and trailing non-digits do not change the role. */
  lemma MapRoleOfText(pre: string, n: nat, post: string)
    requires Text.IsBlank(pre)
    requires post == [] || !Text.IsDigit(post[0])
    ensures MapRole(JStr(pre + Text.NatToText(n) + post)) == MapRole(JNum(n))
  {
    Text.ParseRendered(pre, n, post);
  }

  /** An id that starts with neither whitespace, a sign nor a digit, such as
      a role passed by its name ("admin", "Admin"), has no leading number:
      `parseInt` gives NaN and the user becomes a student. */
  lemma MapRoleOfWord(s: string)
    requires |s| > 0 && !Text.IsSpace(s[0]) && !Text.IsDigit(s[0]) && s[0] != '-' && s[0] != '+'
    ensures MapRole(JStr(s)) == Student
  {
    assert Text.TrimStart(s) == s;
    assert Text.LeadingDigits(Text.Unsigned(s)) == [];
  }

  // ---------------------------------------------------------------------------
  // Handlers
  // ---------------------------------------------------------------------------

  /** A field destructured from `req.body || {}`. */
  function BodyField(body: Json, key: string): Json {
    Get(Or(body, JObj(map[])), key)
  }

  /** `roleId = 1`: the default applies only when the field is undefined. */
  function RequestedRole(body: Json): (r: Json)
    ensures BodyField(body, "roleId").JUndefined? ==> r == JNum(1)
    ensures !BodyField(body, "roleId").JUndefined? ==> r == BodyField(body, "roleId")
  {
    var r := BodyField(body, "roleId");
    if r.JUndefined? then JNum(1) else r
  }

  /** `{ success: false, message: error.message }` for an error the auth
      service returned. */
  function Rejected(status: int, error: Failure): Response {
    Response(status, JObj(map["success" := JBool(false), "message" := error.message]))
  }

  /** `data && data.user ? data.user : null` */
  function SignedUpUser(data: Json): Json {
    if Truthy(data) && Truthy(Get(data, "user")) then Get(data, "user") else JNull
  }

  /** `register`: hash the password and sign the user up with the hash. */
  function Register(body: Json, answer: Answers): (h: Handled)
    // a missing email, username or password: 400 and no call
    ensures h.calls == [] <==>
              !(Truthy(BodyField(body, "email")) && Truthy(BodyField(body, "username"))
                && Truthy(BodyField(body, "password")))
    ensures h.calls == [] ==> h.response == Refuse(400, "email, username, and password are required")
    // otherwise the password is hashed first, and only the hash is sent
    ensures h.calls != [] ==>
              && 1 <= |h.calls| <= 2
              && h.calls[0] == HashPassword(BodyField(body, "password"))
              && (|h.calls| == 2 <==> answer(h.calls[0]).Ok?)
    ensures |h.calls| == 2 ==>
              h.calls[1] == SignUp(BodyField(body, "email"), answer(h.calls[0]).value,
                                   BodyField(body, "username"), RequestedRole(body))
    // the service's own refusal is passed on as a 400
    ensures |h.calls| == 2 && answer(h.calls[1]).Err? ==> h.response == Rejected(400, answer(h.calls[1]).failure)
    ensures |h.calls| == 2 && answer(h.calls[1]).Ok? ==>
              h.response == Succeed(201, "user", SignedUpUser(answer(h.calls[1]).value))
    ensures |h.calls| == 1 ==> h.response == Crash("Registration failed", answer(h.calls[0]).failure)
  {
    var email := BodyField(body, "email");
    var username := BodyField(body, "username");
    var password := BodyField(body, "password");
    if !Truthy(email) || !Truthy(username) || !Truthy(password) then
      Handled(Refuse(400, "email, username, and password are required"), [])
    else
      var c := HashPassword(password);
      match answer(c)
      case Err(e) => Handled(Crash("Registration failed", e), [c])
      case Ok(hashed) =>
        var s := SignUp(email, hashed, username, RequestedRole(body));
        match answer(s)
        case Err(e) => Handled(Rejected(400, e), [c, s])
        case Ok(data) => Handled(Succeed(201, "user", SignedUpUser(data)), [c, s])
  }

  /** The role a stored user row carries: `user.roleid || user.roleId || 1`. */
  function RowRole(user: Json): Role {
    MapRole(Or(Or(Get(user, "roleid"), Get(user, "roleId")), JNum(1)))
  }

  /** The token claims for a user row, which the login response also returns. */
  function Claims(user: Json): Json {
    JObj(map["id" := Or(Get(user, "userid"), Get(user, "id")),
             "username" := Get(user, "username"),
             "role" := JStr(RoleName(RowRole(user)))])
  }

  /** `res.json({ token, user })` */
  function TokenIssued(token: Json, user: Json): Response {
    Response(200, JObj(map["token" := token, "user" := user]))
  }

  /** `login`: look the user up by name, check the password, sign a token. */
  function Login(body: Json, answer: Answers): (h: Handled)
    ensures h.calls == [] <==>
              !(Truthy(BodyField(body, "username")) && Truthy(BodyField(body, "password")))
    ensures h.calls == [] ==> h.response == Refuse(400, "username and password are required")
    ensures h.calls != [] ==>
              && |h.calls| <= 3
              && h.calls[0] == DbSelect("tbuser", Some(Eq("username", BodyField(body, "username"))))
    // an unknown user and a wrong password answer alike
    ensures h.response.status == 401 <==>
              && |h.calls| >= 1
              && (|| answer(h.calls[0]).Err? || !Truthy(answer(h.calls[0]).value)
                  || (|h.calls| == 2 && answer(h.calls[1]).Ok? && !Truthy(answer(h.calls[1]).value)))
    ensures h.response.status == 401 ==> h.response == Refuse(401, "Invalid credentials")
    ensures |h.calls| >= 2 ==>
              && answer(h.calls[0]).Ok? && Truthy(answer(h.calls[0]).value)
              && h.calls[1] == ComparePassword(BodyField(body, "password"), Get(answer(h.calls[0]).value, "password"))
    // a known user's password is always compared
    ensures |h.calls| >= 1 && answer(h.calls[0]).Ok? && Truthy(answer(h.calls[0]).value) ==> |h.calls| >= 2
    // a matching password always leads to a signed token
    ensures |h.calls| >= 2 && answer(h.calls[1]).Ok? && Truthy(answer(h.calls[1]).value) ==> |h.calls| == 3
    // every 500 carries the error the comparison or the signing threw
    ensures |h.calls| == 2 && answer(h.calls[1]).Err? ==> h.response == Crash("Login failed", answer(h.calls[1]).failure)
    ensures |h.calls| == 3 && answer(h.calls[2]).Err? ==> h.response == Crash("Login failed", answer(h.calls[2]).failure)
    // a token is signed only after the password matched, for that user's row
    ensures |h.calls| == 3 ==>
              && answer(h.calls[1]).Ok? && Truthy(answer(h.calls[1]).value)
              && h.calls[2] == SignToken(Claims(answer(h.calls[0]).value))
    // a 200 returns the signed token and exactly the claims it signed
    ensures h.response.status == 200 <==> |h.calls| == 3 && answer(h.calls[2]).Ok?
    ensures h.response.status == 200 ==>
              && Member(h.response, "token") == answer(h.calls[2]).value
              && Member(h.response, "user") == h.calls[2].claims
    ensures h.response.status in {200, 400, 401, 500}
    ensures h.response.status == 500 ==> MessageOf(h.response) == JStr("Login failed")
  {
    var username := BodyField(body, "username");
    var password := BodyField(body, "password");
    if !Truthy(username) || !Truthy(password) then
      Handled(Refuse(400, "username and password are required"), [])
    else
      var q := DbSelect("tbuser", Some(Eq("username", username)));
      match answer(q)
      case Err(_) => Handled(Refuse(401, "Invalid credentials"), [q])
      case Ok(user) =>
        if !Truthy(user) then Handled(Refuse(401, "Invalid credentials"), [q])
        else
          var c := ComparePassword(password, Get(user, "password"));
          match answer(c)
          case Err(e) => Handled(Crash("Login failed", e), [q, c])
          case Ok(ok) =>
            if !Truthy(ok) then Handled(Refuse(401, "Invalid credentials"), [q, c])
            else
              var s := SignToken(Claims(user));
              match answer(s)
              case Err(e) => Handled(Crash("Login failed", e), [q, c, s])
              case Ok(token) => Handled(TokenIssued(token, Claims(user)), [q, c, s])
  }

  /** The role claim of a login token is always one of the five role names,
      student when the row carries no known role id. */
  lemma LoginRoleIsKnown(body: Json, answer: Answers)
    ensures var h := Login(body, answer);
            h.response.status == 200 ==>
              && Member(h.response, "user").JObj?
              && "role" in Member(h.response, "user").fields
              && exists r: Role :: Member(h.response, "user").fields["role"] == JStr(RoleName(r))
  {
    var h := Login(body, answer);
    if h.response.status == 200 {
      var user := answer(h.calls[0]).value;
      assert Member(h.response, "user") == Claims(user);
      assert Claims(user).fields["role"] == JStr(RoleName(RowRole(user)));
    }
  }

  /** `getProfile`: the authenticated user, or the user row named by the
      route parameter. */
  function GetProfile(user: Json, params: Json, answer: Answers): (h: Handled)
    ensures Truthy(user) ==> h == Handled(Succeed(200, "user", user), [])
    ensures !Truthy(user) && !Truthy(if Nullish(params) then JUndefined else Get(params, "id")) ==>
              h == Handled(Refuse(400, "Missing user context"), [])
    ensures |h.calls| == 1 ==>
              && !Truthy(user) && !Nullish(params) && Truthy(Get(params, "id"))
              && h.calls[0] == DbSelect("tbuser", Some(Eq("userid", Get(params, "id"))))
              && h.response == (match answer(h.calls[0])
                                case Ok(data) => Succeed(200, "user", data)
                                case Err(e) => Crash("Get profile failed", e))
    ensures |h.calls| <= 1
    // without an authenticated user, a present route id is always looked up
    ensures !Truthy(user) && !Nullish(params) && Truthy(Get(params, "id")) ==> |h.calls| == 1
  {
    if Truthy(user) then Handled(Succeed(200, "user", user), [])
    else
      var id := if Nullish(params) then JUndefined else Get(params, "id");
      if !Truthy(id) then Handled(Refuse(400, "Missing user context"), [])
      else
        var q := DbSelect("tbuser", Some(Eq("userid", id)));
        match answer(q)
        case Err(e) => Handled(Crash("Get profile failed", e), [q])
        case Ok(data) => Handled(Succeed(200, "user", data), [q])
  }

  /** `logout`: end the auth service session. */
  function Logout(answer: Answers): (h: Handled)
    ensures h.calls == [SignOut]
    ensures h.response.status == 200 <==> answer(SignOut).Ok?
    ensures answer(SignOut).Err? ==> h.response == Crash("Logout failed", answer(SignOut).failure)
  {
    match answer(SignOut)
    case Err(e) => Handled(Crash("Logout failed", e), [SignOut])
    case Ok(_) => Handled(Response(200, JObj(map["success" := JBool(true)])), [SignOut])
  }

  /** The role an OAuth user carries: `req.user.roleId || req.user.roleid || 1`
      (the reverse of the login order). */
  function OAuthRole(user: Json): Role {
    MapRole(Or(Or(Get(user, "roleId"), Get(user, "roleid")), JNum(1)))
  }

  /** `googleCallback`: sign a token for the user an earlier middleware
      attached and return it with that user. */
  function GoogleCallback(user: Json, answer: Answers): (h: Handled)
    ensures !Truthy(user) <==> h.calls == []
    ensures !Truthy(user) ==> h.response == Refuse(400, "Missing user")
    ensures Truthy(user) ==>
              && h.calls == [SignToken(JObj(map["id" := Get(user, "id"),
                                                "username" := Get(user, "username"),
                                                "role" := JStr(RoleName(OAuthRole(user)))]))]
              && h.response == (match answer(h.calls[0])
                                case Ok(token) => TokenIssued(token, user)
                                case Err(e) => Crash("Google callback failed", e))
  {
    if !Truthy(user) then Handled(Refuse(400, "Missing user"), [])
    else
      var s := SignToken(JObj(map["id" := Get(user, "id"),
                                  "username" := Get(user, "username"),
                                  "role" := JStr(RoleName(OAuthRole(user)))]));
      match answer(s)
      case Err(e) => Handled(Crash("Google callback failed", e), [s])
      case Ok(token) => Handled(TokenIssued(token, user), [s])
  }
}

=== FILE: courses.dfy ===
/** The course handlers (src/controllers/courses.js): a course carries any
    number of attached files, uploaded and removed one by one through the
    course-file manager in the `courses` bucket. */
module Courses {
  import opened Maybe
  import opened Js
  import opened Http
  import Payload

  /** The outcome of a `for ... of` loop that awaits one manager call per
      element: the values collected, or the first error thrown, and the calls
      issued up to and including the failing one. */
  datatype Fanout = Fanout(results: Result<seq<Json>>, calls: seq<Call>)

  /** `calls` are the uploads of the first `|calls|` files of `list`, in
      order, each bound to `row`. */
  predicate UploadsOf(calls: seq<Call>, row: Json, list: seq<Json>) {
    |calls| <= |list| && forall i :: 0 <= i < |calls| ==> calls[i] == CourseFileCreate(row, list[i])
  }

  /** Uploading the first file in front of the uploads of the rest. */
  lemma UploadsOfCons(c: Call, row: Json, files: seq<Json>, rest: seq<Call>)
    requires |files| > 0 && c == CourseFileCreate(row, files[0])
    requires UploadsOf(rest, row, files[1..])
    ensures UploadsOf([c] + rest, row, files)
  {
    var all := [c] + rest;
    forall i | 1 <= i < |all|
      ensures all[i] == CourseFileCreate(row, files[i])
    {
      assert all[i] == rest[i - 1];
      assert files[1..][i - 1] == files[i];
    }
  }

  /** The manager answered each of `calls` with the matching element of `results`. */
  predicate AnsweredWith(calls: seq<Call>, results: seq<Json>, answer: Answers) {
    |calls| == |results| && forall i :: 0 <= i < |calls| ==> answer(calls[i]) == Ok(results[i])
  }

  /** One more answered call in front of answered calls. */
  lemma AnsweredWithCons(c: Call, created: Json, calls: seq<Call>, results: seq<Json>, answer: Answers)
    requires answer(c) == Ok(created) && AnsweredWith(calls, results, answer)
    ensures AnsweredWith([c] + calls, [created] + results, answer)
  {
    var all := [c] + calls;
    forall i | 1 <= i < |all|
      ensures answer(all[i]) == Ok(([created] + results)[i])
    {
      assert all[i] == calls[i - 1];
    }
  }

  /** `for (const file of files) results.push(await courses.create(data[0], file, bucket))` */
  function UploadEach(data: Json, files: seq<Json>, answer: Answers): (f: Fanout)
    // one upload per file, in order, each on the first row, stopping at the first failure
    ensures |f.calls| <= |files|
    ensures |f.calls| > 0 ==> !Nullish(data) && UploadsOf(f.calls, At(data, 0).value, files)
    ensures forall i :: 0 <= i < |f.calls| - 1 ==> answer(f.calls[i]).Ok?
    // success: every file uploaded, the results are the manager's answers in order
    ensures f.results.Ok? ==>
              && |f.calls| == |files| && AnsweredWith(f.calls, f.results.value, answer)
    // failure: a missing first row throws before any upload; otherwise the last upload threw
    ensures f.results.Err? ==>
              && files != []
              && (if Nullish(data) then f.calls == []
                  else |f.calls| > 0 && answer(f.calls[|f.calls| - 1]) == Err(f.results.failure))
    decreases |files|
  {
    if files == [] then Fanout(Ok([]), [])
    else
      match At(data, 0)
      case Err(e) => Fanout(Err(e), [])
      case Ok(row) =>
        var c := CourseFileCreate(row, files[0]);
        match answer(c)
        case Err(e) => Fanout(Err(e), [c])
        case Ok(created) =>
          var rest := UploadEach(data, files[1..], answer);
          UploadsOfCons(c, row, files, rest.calls);
          match rest.results
          case Err(e) => Fanout(Err(e), [c] + rest.calls)
          case Ok(more) =>
            AnsweredWithCons(c, created, rest.calls, more, answer);
            Fanout(Ok([created] + more), [c] + rest.calls)
  }

  /** What `if (files) for (const file of files)` visits: nothing when
      `files` is falsy, its elements when it is iterable. */
  function Listed(files: Json): Result<seq<Json>> {
    if !Truthy(files) then Ok([]) else Elements(files, "files")
  }

  /** `201 { success: true, data: data[0], files: results }` */
  function Attached(row: Json, results: seq<Json>): Response {
    Response(201, JObj(map["success" := JBool(true), "data" := row, "files" := JArr(results)]))
  }

  /** What a create or update answers about its uploads, once the course
      query (`h.calls[0]`) returned `data`: one upload per request file, on
      the first row, in order, stopping at the first failure; a 201 lists the
      manager's answers in the same order; anything else is a 500. */
  predicate UploadsReported(h: Handled, data: Json, files: Json, answer: Answers, message: string) {
    && |h.calls| >= 1
    && var uploads := h.calls[1..];
    && (|uploads| > 0 ==>
          && Listed(files).Ok? && !Nullish(data)
          && UploadsOf(uploads, At(data, 0).value, Listed(files).value)
          && (forall i :: 0 <= i < |uploads| - 1 ==> answer(uploads[i]).Ok?))
    && h.response.status in {201, 500}
    && (h.response.status == 201 ==>
          && Listed(files).Ok? && !Nullish(data)
          && |uploads| == |Listed(files).value|
          && Member(h.response, "data") == At(data, 0).value
          && |Items(h.response, "files")| == |uploads|
          && forall i :: 0 <= i < |uploads| ==> answer(uploads[i]) == Ok(Items(h.response, "files")[i]))
    && (h.response.status == 500 ==>
          && MessageOf(h.response) == JStr(message)
          && (|| Listed(files).Err? || Nullish(data)
              || (|uploads| > 0 && answer(uploads[|uploads| - 1]).Err?)))
  }

  /** Uploads that all succeed answer 201, after one upload per request file. */
  lemma UploadsReportedAllOk(h: Handled, data: Json, files: Json, answer: Answers, message: string)
    requires UploadsReported(h, data, files, answer, message)
    requires Listed(files).Ok? && !Nullish(data)
    requires forall i :: 0 <= i < |Listed(files).value| ==>
               answer(CourseFileCreate(At(data, 0).value, Listed(files).value[i])).Ok?
    ensures h.response.status == 201 && |h.calls| == 1 + |Listed(files).value|
  {
  }

  /** The tail shared by `create` and `update`: upload the request files
      against the first returned row, then answer with that row. */
  function AttachFiles(c: Call, data: Json, files: Json, answer: Answers, message: string): (h: Handled)
    ensures |h.calls| >= 1 && h.calls[0] == c
    ensures UploadsReported(h, data, files, answer, message)
  {
    match Listed(files)
    case Err(e) => Handled(Crash(message, e), [c])
    case Ok(list) =>
      var f := UploadEach(data, list, answer);
      assert ([c] + f.calls)[1..] == f.calls;
      match f.results
      case Err(e) => Handled(Crash(message, e), [c] + f.calls)
      case Ok(results) =>
        match At(data, 0)
        case Err(e) => Handled(Crash(message, e), [c] + f.calls)
        case Ok(row) =>
          var r := Attached(row, results);
          assert Items(r, "files") == results;
          Handled(r, [c] + f.calls)
  }

  /** `getAll`: every course. */
  function GetAll(answer: Answers): (h: Handled)
    ensures h.calls == [DbSelect("tbcourse", None)]
    ensures h.response.status == 200 <==> answer(h.calls[0]).Ok?
    ensures h.response.status == 200 ==> Member(h.response, "data") == answer(h.calls[0]).value
    ensures h.response.status != 200 ==> MessageOf(h.response) == JStr("Error fetching course")
  {
    Fetch(DbSelect("tbcourse", None), "Error fetching course", answer)
  }

  /** `getById`: the course with the given `courseid`. */
  function GetById(id: Json, answer: Answers): (h: Handled)
    ensures h.calls == [DbSelect("tbcourse", Some(Eq("courseid", id)))]
    ensures h.response.status == 200 <==> answer(h.calls[0]).Ok?
    ensures h.response.status == 200 ==> Member(h.response, "data") == answer(h.calls[0]).value
    ensures h.response.status != 200 ==> MessageOf(h.response) == JStr("Error fetching course")
  {
    Fetch(DbSelect("tbcourse", Some(Eq("courseid", id))), "Error fetching course", answer)
  }

  /** `create`: insert the sanitized course, then upload every request file
      against the first inserted row. */
  function Create(body: Json, files: Json, answer: Answers): (h: Handled)
    // without a usable title: 400 and no call at all
    ensures h.response.status == 400 <==> !Payload.Supplies(body, "title")
    ensures h.response.status == 400 ==>
              h.response == Refuse(400, "Title are required for a new course") && h.calls == []
    ensures Payload.Supplies(body, "title") ==>
              && |h.calls| >= 1
              && h.calls[0] == DbInsert("tbcourse", Payload.SanitizeBody(Payload.Course, body))
    // a failed insert uploads nothing
    ensures |h.calls| >= 1 && answer(h.calls[0]).Err? ==>
              |h.calls| == 1 && h.response == Crash("Error creating course", answer(h.calls[0]).failure)
    ensures |h.calls| >= 1 && answer(h.calls[0]).Ok? ==>
              UploadsReported(h, answer(h.calls[0]).value, files, answer, "Error creating course")
  {
    var insert := Payload.SanitizeBody(Payload.Course, body);
    if !Payload.Provides(Payload.Course, body, "title") then
      Handled(Refuse(400, "Title are required for a new course"), [])
    else
      var c := DbInsert("tbcourse", insert);
      match answer(c)
      case Err(e) => Handled(Crash("Error creating course", e), [c])
      case Ok(data) => AttachFiles(c, data, files, answer, "Error creating course")
  }

  /** `update`: update the course, then upload the request files as new
      attachments; the files already attached are kept. */
  function Update(id: Json, body: Json, files: Json, answer: Answers): (h: Handled)
    ensures |h.calls| >= 1
    ensures h.calls[0] == DbUpdate("tbcourse", Payload.SanitizeBody(Payload.Course, body), Eq("courseid", id))
    ensures answer(h.calls[0]).Err? ==>
              |h.calls| == 1 && h.response == Crash("Error updating course", answer(h.calls[0]).failure)
    // no matching course: 404 and no upload
    ensures h.response.status == 404 <==> answer(h.calls[0]).Ok? && NoRows(answer(h.calls[0]).value)
    ensures h.response.status == 404 ==> h.response == Refuse(404, "Course not found.") && |h.calls| == 1
    ensures answer(h.calls[0]).Ok? && !NoRows(answer(h.calls[0]).value) ==>
              UploadsReported(h, answer(h.calls[0]).value, files, answer, "Error updating course")
    // append-only: an update never removes an attached file
    ensures forall i :: 0 <= i < |h.calls| ==> !h.calls[i].CourseFileDelete?
  {
    var insert := Payload.SanitizeBody(Payload.Course, body);
    var c := DbUpdate("tbcourse", insert, Eq("courseid", id));
    match answer(c)
    case Err(e) => Handled(Crash("Error updating course", e), [c])
    case Ok(data) =>
      if NoRows(data) then Handled(Refuse(404, "Course not found."), [c])
      else AttachFiles(c, data, files, answer, "Error updating course")
  }

  /** `for (const file of files) await courses.delete(file, bucket)`: the
      first error thrown, if any, and the removals issued. */
  function DeleteEach(files: seq<Json>, answer: Answers): (f: Fanout)
    // one removal per file, in order, stopping at the first failure
    ensures |f.calls| <= |files|
    ensures forall i :: 0 <= i < |f.calls| ==> f.calls[i] == CourseFileDelete(files[i])
    ensures forall i :: 0 <= i < |f.calls| - 1 ==> answer(f.calls[i]).Ok?
    ensures f.results.Ok? <==> |f.calls| == |files| && forall i :: 0 <= i < |files| ==> answer(f.calls[i]).Ok?
    ensures f.results.Err? ==> |f.calls| > 0 && answer(f.calls[|f.calls| - 1]) == Err(f.results.failure)
    decreases |files|
  {
    if files == [] then Fanout(Ok([]), [])
    else
      var c := CourseFileDelete(files[0]);
      match answer(c)
      case Err(e) => Fanout(Err(e), [c])
      case Ok(_) =>
        var rest := DeleteEach(files[1..], answer);
        Fanout(rest.results, [c] + rest.calls)
  }

  /** `200 { success: true, message: "Course id: <id> hard deleted successfully" }` */
  function Deleted(id: Json): Response {
    Response(200, JObj(map["success" := JBool(true),
                           "message" := JStr("Course id: " + ToText(id) + " hard deleted successfully")]))
  }

  /** The attached-file list of the first deleted row, `data[0].tbcourse_files`. */
  function CourseFiles(data: Json): Result<Json> {
    match At(data, 0)
    case Err(e) => Err(e)
    case Ok(row) => Prop(row, "tbcourse_files")
  }

  /** `calls` are the removals of the first `|calls|` files of `list`, in order. */
  predicate RemovalsOf(calls: seq<Call>, list: seq<Json>) {
    |calls| <= |list| && forall i :: 0 <= i < |calls| ==> calls[i] == CourseFileDelete(list[i])
  }

  /** Every call of `calls` succeeded. */
  predicate AllOk(calls: seq<Call>, answer: Answers) {
    forall i :: 0 <= i < |calls| ==> answer(calls[i]).Ok?
  }

  /** The removal loop of `delete`, after the course query `c`, over the
      attached files `list`, and the answer it leads to. */
  function RemoveAll(c: Call, id: Json, list: seq<Json>, answer: Answers): (h: Handled)
    ensures |h.calls| >= 1 && h.calls[0] == c
    ensures RemovalsOf(h.calls[1..], list)
    ensures h.response.status in {200, 500}
    ensures h.response.status == 200 ==>
              h.response == Deleted(id) && |h.calls| == 1 + |list| && AllOk(h.calls[1..], answer)
    ensures h.response.status == 500 ==>
              && |h.calls| > 1 && answer(h.calls[|h.calls| - 1]).Err?
              && h.response == Crash("Error deleting course", answer(h.calls[|h.calls| - 1]).failure)
  {
    var f := DeleteEach(list, answer);
    assert ([c] + f.calls)[1..] == f.calls;
    match f.results
    case Err(e) => Handled(Crash("Error deleting course", e), [c] + f.calls)
    case Ok(_) => Handled(Deleted(id), [c] + f.calls)
  }

  /** `delete`: delete the course, then remove every file attached to it. */
  function Delete(id: Json, answer: Answers): (h: Handled)
    ensures |h.calls| >= 1
    ensures h.calls[0] == DbDelete("tbcourse", Eq("courseid", id))
    ensures h.response.status == 404 <==> answer(h.calls[0]).Ok? && NoRows(answer(h.calls[0]).value)
    ensures h.response.status == 404 ==> h.response == Refuse(404, "Course not found.") && |h.calls| == 1
    ensures h.response.status in {200, 404, 500}
    // every 500 carries the error that was thrown: the query's, the TypeError
    // of a missing row or of a non-iterable list, or the failed removal's
    ensures answer(h.calls[0]).Err? ==>
              |h.calls| == 1 && h.response == Crash("Error deleting course", answer(h.calls[0]).failure)
    ensures answer(h.calls[0]).Ok? && !NoRows(answer(h.calls[0]).value)
            && CourseFiles(answer(h.calls[0]).value).Err? ==>
              h.response == Crash("Error deleting course", CourseFiles(answer(h.calls[0]).value).failure)
    ensures answer(h.calls[0]).Ok? && !NoRows(answer(h.calls[0]).value)
            && CourseFiles(answer(h.calls[0]).value).Ok? && Listed(CourseFiles(answer(h.calls[0]).value).value).Err? ==>
              h.response == Crash("Error deleting course", Listed(CourseFiles(answer(h.calls[0]).value).value).failure)
    ensures |h.calls| > 1 && answer(h.calls[|h.calls| - 1]).Err? ==>
              h.response == Crash("Error deleting course", answer(h.calls[|h.calls| - 1]).failure)
    ensures h.response.status == 500 ==>
              || answer(h.calls[0]).Err?
              || CourseFiles(answer(h.calls[0]).value).Err?
              || Listed(CourseFiles(answer(h.calls[0]).value).value).Err?
              || (|h.calls| > 1 && answer(h.calls[|h.calls| - 1]).Err?)
    // every removal is of an attached file, in list order
    ensures |h.calls| > 1 ==>
              && answer(h.calls[0]).Ok? && CourseFiles(answer(h.calls[0]).value).Ok?
              && var files := Listed(CourseFiles(answer(h.calls[0]).value).value);
              && files.Ok? && RemovalsOf(h.calls[1..], files.value)
    // a 200 removed every attached file, each exactly once
    ensures h.response.status == 200 ==>
              && h.response == Deleted(id)
              && answer(h.calls[0]).Ok? && CourseFiles(answer(h.calls[0]).value).Ok?
              && var files := Listed(CourseFiles(answer(h.calls[0]).value).value);
              && files.Ok? && |h.calls| == 1 + |files.value| && AllOk(h.calls[1..], answer)
  {
    var c := DbDelete("tbcourse", Eq("courseid", id));
    match answer(c)
    case Err(e) => Handled(Crash("Error deleting course", e), [c])
    case Ok(data) =>
      if NoRows(data) then Handled(Refuse(404, "Course not found."), [c])
      else
        match CourseFiles(data)
        case Err(e) => Handled(Crash("Error deleting course", e), [c])
        case Ok(attached) =>
          match Listed(attached)
          case Err(e) => Handled(Crash("Error deleting course", e), [c])
          case Ok(list) => RemoveAll(c, id, list, answer)
  }

  /** A deleted course whose attached files are all removed without error
      answers 200, after one removal per attached file. */
  lemma DeleteAllOk(id: Json, answer: Answers)
    requires var data := answer(DbDelete("tbcourse", Eq("courseid", id)));
             && data.Ok? && !NoRows(data.value) && CourseFiles(data.value).Ok?
             && Listed(CourseFiles(data.value).value).Ok?
    requires var list := Listed(CourseFiles(answer(DbDelete("tbcourse", Eq("courseid", id))).value).value).value;
             forall i :: 0 <= i < |list| ==> answer(CourseFileDelete(list[i])).Ok?
    ensures var h := Delete(id, answer);
            var list := Listed(CourseFiles(answer(DbDelete("tbcourse", Eq("courseid", id))).value).value).value;
            h.response == Deleted(id) && |h.calls| == 1 + |list|
  {
  }
}

=== FILE: grades.dfy ===
/** The grade handlers (src/controllers/grades.js): each grade owns at most one
    report attachment, managed through models/reports.js in the `reports`
    bucket. */
module Grades {
  import opened Maybe
  import opened Js
  import opened Http
  import Payload

  /** `{ success: true, data, uploaded }` */
  function WithUploads(status: int, data: Json, uploaded: seq<Json>): (r: Response)
    ensures r.status == status && Items(r, "uploaded") == uploaded
  {
    Response(status, JObj(map["success" := JBool(true), "data" := data, "uploaded" := JArr(uploaded)]))
  }

  /** `200 { success: true, message: "students grade id: <id> hard deleted successfully" }` */
  function Deleted(id: Json): Response {
    Response(200, JObj(map["success" := JBool(true),
                           "message" := JStr("students grade id: " + ToText(id) + " hard deleted successfully")]))
  }

  /** `getAll`: every grade. */
  function GetAll(answer: Answers): (h: Handled)
    ensures h.calls == [DbSelect("tbgrade", None)]
    ensures h.response.status == 200 <==> answer(h.calls[0]).Ok?
    ensures h.response.status == 200 ==> Member(h.response, "data") == answer(h.calls[0]).value
    ensures h.response.status != 200 ==> MessageOf(h.response) == JStr("Error fetching grade")
  {
    Fetch(DbSelect("tbgrade", None), "Error fetching grade", answer)
  }

  /** `getById`: the grades of the student whose id is given; the id is
      matched against `studentid`, not against the grade's own id. */
  function GetById(id: Json, answer: Answers): (h: Handled)
    ensures h.calls == [DbSelect("tbgrade", Some(Eq("studentid", id)))]
    ensures h.response.status == 200 <==> answer(h.calls[0]).Ok?
    ensures h.response.status == 200 ==> Member(h.response, "data") == answer(h.calls[0]).value
    ensures h.response.status != 200 ==> MessageOf(h.response) == JStr("Error fetching grade")
  {
    Fetch(DbSelect("tbgrade", Some(Eq("studentid", id))), "Error fetching grade", answer)
  }

  /** What a report-manager call `u` made with `arg` yields: the manager's
      first read, `arg.<key>`, throws on a missing `arg` before it touches
      the store or the bucket; otherwise the manager's own answer. */
  function ManagerAnswer(u: Call, arg: Json, key: string, answer: Answers): Result<Json> {
    if Nullish(arg) then Err(Prop(arg, key).failure) else answer(u)
  }

  /** `create`: insert the sanitized grade, then attach the uploaded report
      file, if any, to the first inserted row. */
  function Create(body: Json, file: Json, answer: Answers): (h: Handled)
    // without a usable test type: 400 and no call at all
    ensures h.response.status == 400 <==> !Payload.Supplies(body, "test_type")
    ensures h.response.status == 400 ==>
              h.response == Refuse(400, "Test type are required for a new grade") && h.calls == []
    // otherwise the insert, then at most one report upload, for a present file
    ensures Payload.Supplies(body, "test_type") ==>
              1 <= |h.calls| <= 2 && h.calls[0] == DbInsert("tbgrade", Payload.SanitizeBody(Payload.Grade, body))
    // a failed insert answers 500 with the query's error, and uploads nothing
    ensures |h.calls| >= 1 && answer(h.calls[0]).Err? ==>
              |h.calls| == 1 && h.response == Crash("Error creating new grade", answer(h.calls[0]).failure)
    // the manager is called exactly for a present file and a present result,
    // with the result's first row, even a missing one
    ensures |h.calls| == 2 <==>
              |h.calls| >= 1 && answer(h.calls[0]).Ok? && Truthy(file) && !Nullish(answer(h.calls[0]).value)
    ensures |h.calls| == 2 ==>
              && answer(h.calls[0]).Ok? && !Nullish(answer(h.calls[0]).value)
              && h.calls[1] == ReportCreate(At(answer(h.calls[0]).value, 0).value, file)
    // a missing result: the handler's own `data[0]` throws, before any upload
    ensures |h.calls| >= 1 && answer(h.calls[0]).Ok? && Truthy(file) && Nullish(answer(h.calls[0]).value) ==>
              h.response == Crash("Error creating new grade", At(answer(h.calls[0]).value, 0).failure)
    // a missing first row: the manager throws reading its student id
    ensures |h.calls| == 2 && Nullish(h.calls[1].row) ==>
              h.response == Crash("Error creating new grade", Prop(h.calls[1].row, "studentid").failure)
    // a failed upload answers 500 with the manager's error
    ensures |h.calls| == 2 && !Nullish(h.calls[1].row) && answer(h.calls[1]).Err? ==>
              h.response == Crash("Error creating new grade", answer(h.calls[1]).failure)
    // a successful insert answers 201: at once without a file, after the upload with one
    ensures Payload.Supplies(body, "test_type") && answer(h.calls[0]).Ok? && !Truthy(file) ==>
              h.response == WithUploads(201, answer(h.calls[0]).value, [])
    ensures |h.calls| == 2 && !Nullish(h.calls[1].row) && answer(h.calls[1]).Ok? ==>
              h.response == WithUploads(201, answer(h.calls[0]).value, [answer(h.calls[1]).value])
    ensures h.response.status == 201 ==>
              && |h.calls| == (if Truthy(file) then 2 else 1)
              && (!Truthy(file) ==> Items(h.response, "uploaded") == [])
              && (Truthy(file) ==>
                    && !Nullish(h.calls[1].row) && answer(h.calls[1]).Ok?
                    && Items(h.response, "uploaded") == [answer(h.calls[1]).value])
    ensures h.response.status in {201, 400, 500}
  {
    var insert := Payload.SanitizeBody(Payload.Grade, body);
    if !Payload.Provides(Payload.Grade, body, "test_type") then
      Handled(Refuse(400, "Test type are required for a new grade"), [])
    else
      var c := DbInsert("tbgrade", insert);
      match answer(c)
      case Err(e) => Handled(Crash("Error creating new grade", e), [c])
      case Ok(data) =>
        if !Truthy(file) then Handled(WithUploads(201, data, []), [c])
        else AttachReport(c, data, file, answer)
  }

  /** The upload step of `create`, after the insert `c` returned `data`:
      `reports.create(data[0], file)` for a present file. */
  function AttachReport(c: Call, data: Json, file: Json, answer: Answers): (h: Handled)
    ensures 1 <= |h.calls| <= 2 && h.calls[0] == c
    // the handler's own `data[0]` throws on a missing result, before any upload
    ensures |h.calls| == 2 <==> !Nullish(data)
    ensures Nullish(data) ==> h.response == Crash("Error creating new grade", At(data, 0).failure)
    ensures |h.calls| == 2 ==> h.calls[1] == ReportCreate(At(data, 0).value, file)
    // a missing first row reaches the manager, which throws reading its student id
    ensures |h.calls| == 2 && Nullish(h.calls[1].row) ==>
              h.response == Crash("Error creating new grade", Prop(h.calls[1].row, "studentid").failure)
    ensures |h.calls| == 2 && !Nullish(h.calls[1].row) && answer(h.calls[1]).Err? ==>
              h.response == Crash("Error creating new grade", answer(h.calls[1]).failure)
    ensures |h.calls| == 2 && !Nullish(h.calls[1].row) && answer(h.calls[1]).Ok? ==>
              h.response == WithUploads(201, data, [answer(h.calls[1]).value])
  {
    match At(data, 0)
    case Err(e) => Handled(Crash("Error creating new grade", e), [c])
    case Ok(row) =>
      var u := ReportCreate(row, file);
      match ManagerAnswer(u, row, "studentid", answer)
      case Err(e) => Handled(Crash("Error creating new grade", e), [c, u])
      case Ok(created) => Handled(WithUploads(201, data, [created]), [c, u])
  }

  /** `file && file.length > 0`: the request carries a non-empty upload list. */
  predicate ReplaceWanted(file: Json) {
    Truthy(file) && Positive(Get(file, "length"))
  }

  /** `update`: update the grade, then replace its report when a non-empty
      file list came with the request. */
  function Update(id: Json, body: Json, file: Json, answer: Answers): (h: Handled)
    ensures 1 <= |h.calls| <= 2
    ensures h.calls[0] == DbUpdate("tbgrade", Payload.SanitizeBody(Payload.Grade, body), Eq("gradeid", id))
    // a failed update answers 500 with the query's error, and replaces nothing
    ensures answer(h.calls[0]).Err? ==>
              |h.calls| == 1 && h.response == Crash("Error updating grade", answer(h.calls[0]).failure)
    // createOrReplace is called exactly when the update succeeded, a non-empty
    // file list is present and the update returned a result; it gets the
    // result's first row, even a missing one
    ensures |h.calls| == 2 <==>
              answer(h.calls[0]).Ok? && ReplaceWanted(file) && !Nullish(answer(h.calls[0]).value)
    ensures |h.calls| == 2 ==>
              && answer(h.calls[0]).Ok? && !Nullish(answer(h.calls[0]).value)
              && h.calls[1] == ReportReplace(At(answer(h.calls[0]).value, 0).value, file)
    // a missing result: the handler's own `data[0]` throws, before any replacement
    ensures answer(h.calls[0]).Ok? && ReplaceWanted(file) && Nullish(answer(h.calls[0]).value) ==>
              h.response == Crash("Error updating grade", At(answer(h.calls[0]).value, 0).failure)
    // a missing first row: createOrReplace throws reading its grade id
    ensures |h.calls| == 2 && Nullish(h.calls[1].row) ==>
              h.response == Crash("Error updating grade", Prop(h.calls[1].row, "gradeid").failure)
    ensures |h.calls| == 2 && !Nullish(h.calls[1].row) && answer(h.calls[1]).Err? ==>
              h.response == Crash("Error updating grade", answer(h.calls[1]).failure)
    // never 404: without a wanted replacement, a successful update answers 201,
    // even when it matched no row
    ensures h.response.status in {201, 500}
    ensures answer(h.calls[0]).Ok? && !ReplaceWanted(file) ==>
              h.response == WithUploads(201, answer(h.calls[0]).value, [])
    ensures |h.calls| == 2 && !Nullish(h.calls[1].row) && answer(h.calls[1]).Ok? ==>
              h.response == WithUploads(201, answer(h.calls[0]).value, [answer(h.calls[1]).value])
  {
    var insert := Payload.SanitizeBody(Payload.Grade, body);
    var c := DbUpdate("tbgrade", insert, Eq("gradeid", id));
    match answer(c)
    case Err(e) => Handled(Crash("Error updating grade", e), [c])
    case Ok(data) =>
      if !ReplaceWanted(file) then
        Handled(WithUploads(201, data, []), [c])
      else
        match At(data, 0)
        case Err(e) => Handled(Crash("Error updating grade", e), [c])
        case Ok(row) =>
          var u := ReportReplace(row, file);
          match ManagerAnswer(u, row, "gradeid", answer)
          case Err(e) => Handled(Crash("Error updating grade", e), [c, u])
          case Ok(replaced) => Handled(WithUploads(201, data, [replaced]), [c, u])
  }

  /** The report-file list of the first deleted row, `data[0].tbreport_files`. */
  function ReportFiles(data: Json): Result<Json> {
    match At(data, 0)
    case Err(e) => Err(e)
    case Ok(row) => Prop(row, "tbreport_files")
  }

  /** `delete`, as written: delete the grade, then hand the first entry of
      its report-file list to the report manager whenever the list is truthy. */
  function Delete(id: Json, answer: Answers): (h: Handled)
    ensures 1 <= |h.calls| <= 2
    ensures h.calls[0] == DbDelete("tbgrade", Eq("gradeid", id))
    // nothing deleted: 404 and no file touched
    ensures h.response.status == 404 <==> answer(h.calls[0]).Ok? && NoRows(answer(h.calls[0]).value)
    ensures h.response.status == 404 ==> h.response == Refuse(404, "student/grade not found.") && |h.calls| == 1
    // at most one report removal, on the first report file only
    ensures |h.calls| == 2 ==>
              && answer(h.calls[0]).Ok?
              && var files := ReportFiles(answer(h.calls[0]).value);
              && files.Ok? && Truthy(files.value) && h.calls[1] == ReportDelete(At(files.value, 0).value)
    ensures h.response.status in {200, 404, 500}
    ensures h.response.status == 200 ==> h.response == Deleted(id)
    // every 500 carries the error that was thrown: the query's, the TypeError
    // of a missing row, or the report manager's
    ensures answer(h.calls[0]).Err? ==>
              |h.calls| == 1 && h.response == Crash("Error deleting students grade", answer(h.calls[0]).failure)
    ensures answer(h.calls[0]).Ok? && !NoRows(answer(h.calls[0]).value)
            && ReportFiles(answer(h.calls[0]).value).Err? ==>
              h.response == Crash("Error deleting students grade", ReportFiles(answer(h.calls[0]).value).failure)
    ensures |h.calls| == 2 && Nullish(h.calls[1].file) ==>
              h.response == Crash("Error deleting students grade", Prop(h.calls[1].file, "path").failure)
    ensures |h.calls| == 2 && !Nullish(h.calls[1].file) && answer(h.calls[1]).Err? ==>
              h.response == Crash("Error deleting students grade", answer(h.calls[1]).failure)
    // once the report-file list is read, it is handed on exactly when it is truthy
    ensures answer(h.calls[0]).Ok? && !NoRows(answer(h.calls[0]).value)
            && ReportFiles(answer(h.calls[0]).value).Ok? ==>
              (|h.calls| == 2 <==> Truthy(ReportFiles(answer(h.calls[0]).value).value))
    // 200 exactly when the row is gone, its list was read, and any removal succeeded
    ensures h.response.status == 200 <==>
              && answer(h.calls[0]).Ok? && !NoRows(answer(h.calls[0]).value)
              && ReportFiles(answer(h.calls[0]).value).Ok?
              && (|h.calls| == 2 ==> !Nullish(h.calls[1].file) && answer(h.calls[1]).Ok?)
  {
    var c := DbDelete("tbgrade", Eq("gradeid", id));
    match answer(c)
    case Err(e) => Handled(Crash("Error deleting students grade", e), [c])
    case Ok(data) =>
      if NoRows(data) then
        Handled(Refuse(404, "student/grade not found."), [c])
      else
        match ReportFiles(data)
        case Err(e) => Handled(Crash("Error deleting students grade", e), [c])
        case Ok(files) =>
          if !Truthy(files) then
            Handled(Deleted(id), [c])
          else
            var first := At(files, 0).value;
            var d := ReportDelete(first);
            match ManagerAnswer(ReportDelete(first), first, "path", answer)
            case Err(e) => Handled(Crash("Error deleting students grade", e), [c, d])
            case Ok(_) => Handled(Deleted(id), [c, d])
  }

  /** A delete query result holding a deleted grade row. */
  predicate DeletedRow(data: Json) {
    data.JArr? && |data.items| > 0 && data.items[0].JObj?
  }

  /** As written, deleting a grade whose report-file list is empty removes
      the grade row and then answers 500: `file[0]` is undefined and the
      report manager throws reading its `path`. */
  lemma DeleteWithoutReportFails()
    ensures var row := JObj(map["gradeid" := JNum(9), "tbreport_files" := JArr([])]);
            var answer: Answers := (c: Call) => Ok(JArr([row]));
            var h := Delete(JNum(9), answer);
            && DeletedRow(answer(h.calls[0]).value)
            && h.calls[0] == DbDelete("tbgrade", Eq("gradeid", JNum(9)))
            && h.calls[1] == ReportDelete(JUndefined)
            && h.response.status == 500
  {
  }

  /** `delete` with the guard the list check evidently intends: the report
      manager is called only when the grade has a first report file. */
  function DeleteChecked(id: Json, answer: Answers): (h: Handled)
    ensures 1 <= |h.calls| <= 2
    ensures h.calls[0] == DbDelete("tbgrade", Eq("gradeid", id))
    ensures h.response.status == 404 <==> answer(h.calls[0]).Ok? && NoRows(answer(h.calls[0]).value)
    ensures h.response.status == 404 ==> |h.calls| == 1
    ensures |h.calls| == 2 ==>
              && answer(h.calls[0]).Ok?
              && var files := ReportFiles(answer(h.calls[0]).value);
              && files.Ok? && Truthy(files.value) && h.calls[1] == ReportDelete(At(files.value, 0).value)
              && !Nullish(h.calls[1].file)
    // a deleted grade row answers 200 unless the query or the removal fails
    ensures answer(h.calls[0]).Ok? && DeletedRow(answer(h.calls[0]).value) ==>
              h.response.status == 200 || (|h.calls| == 2 && answer(h.calls[1]).Err?)
    ensures answer(h.calls[0]).Err? ==>
              h.response == Crash("Error deleting students grade", answer(h.calls[0]).failure)
    ensures |h.calls| == 2 && answer(h.calls[1]).Err? ==>
              h.response == Crash("Error deleting students grade", answer(h.calls[1]).failure)
    // once the report-file list is read, a present first file is removed, and only then
    ensures answer(h.calls[0]).Ok? && !NoRows(answer(h.calls[0]).value)
            && ReportFiles(answer(h.calls[0]).value).Ok? ==>
              var files := ReportFiles(answer(h.calls[0]).value).value;
              (|h.calls| == 2 <==> Truthy(files) && !Nullish(At(files, 0).value))
    // 200 exactly when the row is gone, its list was read, and any removal succeeded
    ensures h.response.status == 200 <==>
              && answer(h.calls[0]).Ok? && !NoRows(answer(h.calls[0]).value)
              && ReportFiles(answer(h.calls[0]).value).Ok?
              && (|h.calls| == 2 ==> answer(h.calls[1]).Ok?)
    ensures h.response.status == 200 ==> h.response == Deleted(id)
  {
    var c := DbDelete("tbgrade", Eq("gradeid", id));
    match answer(c)
    case Err(e) => Handled(Crash("Error deleting students grade", e), [c])
    case Ok(data) =>
      if NoRows(data) then
        Handled(Refuse(404, "student/grade not found."), [c])
      else
        match ReportFiles(data)
        case Err(e) => Handled(Crash("Error deleting students grade", e), [c])
        case Ok(files) =>
          if !Truthy(files) || Nullish(At(files, 0).value) then
            Handled(Deleted(id), [c])
          else
            var first := At(files, 0).value;
            var d := ReportDelete(first);
            match answer(d)
            case Err(e) => Handled(Crash("Error deleting students grade", e), [c, d])
            case Ok(_) => Handled(Deleted(id), [c, d])
  }

  /** For any deleted grade whose report-file list is empty, the handler as
      written answers 500 after passing `undefined` to the report manager,
      while the guarded version answers 200 without calling it. */
  lemma EmptyReportList(id: Json, answer: Answers)
    requires var data := answer(DbDelete("tbgrade", Eq("gradeid", id)));
             data.Ok? && !NoRows(data.value) && ReportFiles(data.value) == Ok(JArr([]))
    ensures var h := Delete(id, answer);
            |h.calls| == 2 && h.calls[1] == ReportDelete(JUndefined) && h.response.status == 500
    ensures DeleteChecked(id, answer) == Handled(Deleted(id), [DbDelete("tbgrade", Eq("gradeid", id))])
  {
    assert At(JArr([]), 0) == Ok(JUndefined);
  }
}

=== FILE: http.dfy ===
/** The vocabulary the request handlers are written in: the backend calls they
    issue, the answers those calls give, and the response they send. */
module Http {
  import opened Maybe
  import opened Js

  /** An equality filter `.eq(column, value)`. */
  datatype Filter = Eq(column: string, value: Json)

  /** A call a handler makes to a collaborator it does not own. */
  datatype Call =
    // the relational query client: `from(table)` followed by one statement
    | DbSelect(table: string, selector: Option<Filter>)
    | DbInsert(table: string, values: map<string, Json>)
    | DbUpdate(table: string, values: map<string, Json>, filter: Filter)
    | DbDelete(table: string, filter: Filter)
    // the attachment managers (models/reports.js and models/course.js)
    | ReportCreate(row: Json, file: Json)
    | ReportReplace(row: Json, file: Json)
    | ReportDelete(file: Json)
    | CourseFileCreate(row: Json, file: Json)
    | CourseFileDelete(file: Json)
    // the hosted authentication service and the password/token helpers
    | HashPassword(password: Json)
    | SignUp(email: Json, password: Json, username: Json, roleId: Json)
    | SignOut
    | ComparePassword(given: Json, stored: Json)
    | SignToken(claims: Json)

  /** How the backends answer: for a query, `Ok(data)` or `Err(error)` as the
      client returns `{ data, error }`; for a helper or manager, its resolved
      value or the error it throws. */
  type Answers = Call -> Result<Json>

  /** The status and JSON body a handler sends. */
  datatype Response = Response(status: int, body: Json)

  /** A handler's response together with the calls it made, in order. */
  datatype Handled = Handled(response: Response, calls: seq<Call>)

  /** `res.status(status).json({ success: false, message })` */
  function Refuse(status: int, message: string): (r: Response)
    ensures r.status == status && MessageOf(r) == JStr(message)
  {
    Response(status, JObj(map["success" := JBool(false), "message" := JStr(message)]))
  }

  /** The catch-all answer: `500 { success: false, message, error: error.message }` */
  function Crash(message: string, error: Failure): (r: Response)
    ensures r.status == 500 && MessageOf(r) == JStr(message)
  {
    Response(500, JObj(map["success" := JBool(false), "message" := JStr(message),
                           "error" := error.message]))
  }

  /** `{ success: true, <key>: value }` */
  function Succeed(status: int, key: string, value: Json): Response {
    Response(status, JObj(map["success" := JBool(true), key := value]))
  }

  /** The `key` property of a response body (undefined when absent). */
  function Member(r: Response, key: string): Json {
    if r.body.JObj? && key in r.body.fields then r.body.fields[key] else JUndefined
  }

  /** The `message` property of a response body. */
  function MessageOf(r: Response): Json {
    Member(r, "message")
  }

  /** The array a response body carries under `key` (empty when absent). */
  function Items(r: Response, key: string): seq<Json> {
    if r.body.JObj? && key in r.body.fields && r.body.fields[key].JArr? then r.body.fields[key].items else []
  }

  /** The shape of every plain read handler: run the query `c`, answer 200
      with its rows, or 500 with `failure` and the query's error. */
  function Fetch(c: Call, failure: string, answer: Answers): (h: Handled)
    ensures h.calls == [c]
    ensures h.response.status == 200 <==> answer(c).Ok?
    ensures answer(c).Ok? ==> Member(h.response, "data") == answer(c).value
    ensures answer(c).Err? ==> h.response == Crash(failure, answer(c).failure)
  {
    match answer(c)
    case Err(e) => Handled(Crash(failure, e), [c])
    case Ok(data) => Handled(Succeed(200, "data", data), [c])
  }

  /** `!data || data.length === 0`: a query returned no rows. */
  predicate NoRows(data: Json) {
    !Truthy(data) || StrictEquals(Get(data, "length"), JNum(0))
  }
}

=== FILE: js.dfy ===
/** The slice of JavaScript value semantics the handlers depend on: JSON-like
    values, truthiness, `||`, property reads that throw on null/undefined,
    `for ... of` iteration and `String(v)`. */
module Js {
  import opened Maybe
  import Text

  /** A request body, query row or response value. Numbers are integers. */
  datatype Json =
    | JUndefined
    | JNull
    | JBool(b: bool)
    | JNum(n: int)
    | JStr(s: string)
    | JArr(items: seq<Json>)
    | JObj(fields: map<string, Json>)

  /** An error object, thrown or returned: its `code` and `message` properties. */
  datatype Failure = Failure(code: Json, message: Json)

  /** The outcome of a call that may fail with an error object. */
  datatype Result<+T> = Ok(value: T) | Err(failure: Failure)

  predicate Nullish(v: Json) {
    v.JUndefined? || v.JNull?
  }

  /** JavaScript's ToBoolean. */
  predicate Truthy(v: Json) {
    match v
    case JUndefined => false
    case JNull => false
    case JBool(b) => b
    case JNum(n) => n != 0
    case JStr(s) => |s| > 0
    case JArr(_) => true
    case JObj(_) => true
  }

  /** `a || b` */
  function Or(a: Json, b: Json): Json {
    if Truthy(a) then a else b
  }

  /** `a === b` where at least one side is a literal primitive: compound
      values are never identical to a literal. */
  predicate StrictEquals(a: Json, b: Json) {
    !a.JArr? && !a.JObj? && a == b
  }

  /** `v > 0` for the operands a `length` read yields: numbers, booleans,
      null and undefined. */
  predicate Positive(v: Json) {
    match v
    case JNum(n) => n > 0
    case JBool(b) => b
    case _ => false
  }

  /** A named (non-index) property of a value that is not null or undefined;
      arrays and strings carry `length`. */
  function Get(v: Json, key: string): Json {
    match v
    case JObj(m) => if key in m then m[key] else JUndefined
    case JArr(a) => if key == "length" then JNum(|a|) else JUndefined
    case JStr(s) => if key == "length" then JNum(|s|) else JUndefined
    case _ => JUndefined
  }

  /** The TypeError the runtime raises. */
  function TypeError(message: string): Failure {
    Failure(JUndefined, JStr(message))
  }

  /** `v.key`: reading a property of null or undefined throws a TypeError. */
  function Prop(v: Json, key: string): (r: Result<Json>)
    ensures r.Err? <==> Nullish(v)
    ensures r.Ok? ==> r.value == Get(v, key)
  {
    if Nullish(v) then Err(TypeError("Cannot read properties of " + ToText(v) + " (reading '" + key + "')"))
    else Ok(Get(v, key))
  }

  /** `v[i]` */
  function At(v: Json, i: nat): (r: Result<Json>)
    ensures r.Err? <==> Nullish(v)
  {
    match v
    case JUndefined => Err(TypeError("Cannot read properties of undefined (reading '" + Text.NatToText(i) + "')"))
    case JNull => Err(TypeError("Cannot read properties of null (reading '" + Text.NatToText(i) + "')"))
    case JArr(a) => Ok(if i < |a| then a[i] else JUndefined)
    case JStr(s) => Ok(if i < |s| then JStr([s[i]]) else JUndefined)
    case JObj(m) => var k := Text.NatToText(i); Ok(if k in m then m[k] else JUndefined)
    case _ => Ok(JUndefined)
  }

  /** The values `for (const x of v)` visits; `name` is the iterated
      expression as the TypeError message spells it. */
  function Elements(v: Json, name: string): (r: Result<seq<Json>>)
    ensures v.JArr? ==> r == Ok(v.items)
    ensures r.Err? <==> !v.JArr? && !v.JStr?
  {
    match v
    case JArr(a) => Ok(a)
    case JStr(s) => Ok(seq(|s|, i requires 0 <= i < |s| => JStr([s[i]])))
    case _ => Err(TypeError(name + " is not iterable"))
  }

  /** `String(v)`, as a template literal renders `${v}`. */
  function ToText(v: Json): string
    decreases v
  {
    match v
    case JUndefined => "undefined"
    case JNull => "null"
    case JBool(b) => if b then "true" else "false"
    case JNum(n) => Text.IntToText(n)
    case JStr(s) => s
    case JArr(items) =>
      JoinComma(seq(|items|, i requires 0 <= i < |items| =>
        if Nullish(items[i]) then "" else ToText(items[i])))
    case JObj(_) => "[object Object]"
  }

  /** `parts.join(',')` */
  function JoinComma(parts: seq<string>): string {
    if |parts| == 0 then ""
    else if |parts| == 1 then parts[0]
    else parts[0] + "," + JoinComma(parts[1..])
  }
}

=== FILE: maybe.dfy ===
/** The optional value shared by the other modules. */
module Maybe {

  datatype Option<+T> = None | Some(value: T)

}

=== FILE: middleware.dfy ===
/** The bearer-token guard in front of the protected routes
    (src/middleware/auth.js). */
module AuthMiddleware {
  import opened Maybe
  import opened Js
  import opened Http
  import Text

  /** What the token verifier does with a token: return a payload (null for
      an invalid or expired token) or throw on a malformed one. */
  datatype Verified = Returned(payload: Json) | Threw

  /** Either the request goes on to the route with `req.user` set, or the
      guard answers it. */
  datatype Outcome = Next(user: Json) | Stop(response: Response)

  /** The user the development and test environments attach to every request. */
  const DevUser: Json :=
    JObj(map["id" := JStr("dev-user-id"), "email" := JStr("dev@example.com"), "role" := JStr("developer")])

  /** `NODE_ENV === 'development' || NODE_ENV === 'test'` */
  predicate Bypassed(nodeEnv: Option<string>) {
    nodeEnv == Some("development") || nodeEnv == Some("test")
  }

  /** `authHeader && authHeader.split(' ')[1]`: a falsy header is the token
      itself; a string header yields its second space-separated piece; any
      other header has no `split` method and throws. */
  function BearerToken(header: Json): (r: Result<Json>)
    ensures !Truthy(header) ==> r == Ok(header)
    ensures header.JStr? && Truthy(header) ==>
              var parts := Text.SplitOnSpace(header.s);
              r == Ok(if |parts| > 1 then JStr(parts[1]) else JUndefined)
    ensures r.Err? <==> Truthy(header) && !header.JStr?
  {
    if !Truthy(header) then Ok(header)
    else
      match header
      case JStr(s) =>
        var parts := Text.SplitOnSpace(s);
        Ok(if |parts| > 1 then JStr(parts[1]) else JUndefined)
      case _ => Err(TypeError("authHeader.split is not a function"))
  }

  /** `authenticateToken(req, res, next)` for a request whose `authorization`
      header is `header`, with `verify` standing for the token verifier. */
  function Authenticate(nodeEnv: Option<string>, header: Json, verify: string -> Verified): (o: Outcome)
    // development and test skip every check
    ensures Bypassed(nodeEnv) ==> o == Next(DevUser)
    // otherwise a request passes exactly with a non-empty token the verifier
    // accepts, and carries the verifier's payload as its user
    ensures !Bypassed(nodeEnv) ==>
              (o.Next? <==>
                 && BearerToken(header).Ok?
                 && BearerToken(header).value.JStr? && BearerToken(header).value.s != []
                 && verify(BearerToken(header).value.s).Returned?
                 && Truthy(verify(BearerToken(header).value.s).payload))
    ensures !Bypassed(nodeEnv) && o.Next? ==> o.user == verify(BearerToken(header).value.s).payload
    // every refusal is a 401, except a header the guard cannot split
    ensures o.Stop? ==> o.response.status in {401, 500}
    ensures o.Stop? && o.response.status == 500 <==> !Bypassed(nodeEnv) && Truthy(header) && !header.JStr?
    ensures o.Stop? && o.response.status == 401 ==>
              MessageOf(o.response) in {JStr("Access token required"), JStr("Invalid token format"),
                                        JStr("Invalid or expired token")}
    // each refusal names its cause: an unsplittable header ...
    ensures !Bypassed(nodeEnv) && BearerToken(header).Err? ==>
              o == Stop(Crash("Authentication error", BearerToken(header).failure))
    // ... no header, no second piece or an empty one ...
    ensures !Bypassed(nodeEnv) && BearerToken(header).Ok? && !Truthy(BearerToken(header).value) ==>
              o == Stop(Refuse(401, "Access token required"))
    // ... a token the verifier throws on ...
    ensures !Bypassed(nodeEnv) && BearerToken(header).Ok? && Truthy(BearerToken(header).value)
            && BearerToken(header).value.JStr? && verify(BearerToken(header).value.s).Threw? ==>
              o == Stop(Refuse(401, "Invalid token format"))
    // ... or a token it answers with a falsy payload
    ensures !Bypassed(nodeEnv) && BearerToken(header).Ok? && Truthy(BearerToken(header).value)
            && BearerToken(header).value.JStr? && verify(BearerToken(header).value.s).Returned?
            && !Truthy(verify(BearerToken(header).value.s).payload) ==>
              o == Stop(Refuse(401, "Invalid or expired token"))
  {
    if Bypassed(nodeEnv) then Next(DevUser)
    else
      match BearerToken(header)
      case Err(e) => Stop(Crash("Authentication error", e))
      case Ok(token) =>
        if !Truthy(token) then Stop(Refuse(401, "Access token required"))
        else
          match verify(token.s)
          case Threw => Stop(Refuse(401, "Invalid token format"))
          case Returned(payload) =>
            if !Truthy(payload) then Stop(Refuse(401, "Invalid or expired token"))
            else Next(payload)
  }

  /** `Bearer <token>` yields the token, for any space-free scheme word and
      space-free token. */
  lemma BearerTokenOfScheme(scheme: string, token: string)
    requires ' ' !in scheme && ' ' !in token
    ensures BearerToken(JStr(scheme + " " + token)) == Ok(JStr(token))
  {
    Text.SplitJoin([scheme, token]);
    assert Text.JoinWithSpace([scheme, token]) == scheme + " " + token;
  }

  /** Outside development and test, a well-formed bearer header whose token
      the verifier accepts lets the request through with the token's payload. */
  lemma AcceptsVerifiedBearer(nodeEnv: Option<string>, token: string, verify: string -> Verified)
    requires !Bypassed(nodeEnv)
    requires token != [] && ' ' !in token
    requires verify(token).Returned? && Truthy(verify(token).payload)
    ensures Authenticate(nodeEnv, JStr("Bearer " + token), verify) == Next(verify(token).payload)
  {
    BearerTokenOfScheme("Bearer", token);
    assert "Bearer" + " " + token == "Bearer " + token;
  }

  /** A header that is a bare token, with no scheme word before it, carries
      no token at all. */
  lemma RefusesBareToken(nodeEnv: Option<string>, s: string, verify: string -> Verified)
    requires !Bypassed(nodeEnv)
    requires ' ' !in s
    ensures Authenticate(nodeEnv, JStr(s), verify) == Stop(Refuse(401, "Access token required"))
  {
    assert Text.SplitOnSpace(s) == [s];
  }
}

=== FILE: payload.dfy ===
/** The allow-list sanitizer every controller applies to a request body before
    writing it (src/helper/payload.js). */
module Payload {
  import opened Js
  import opened Maybe
  import Text

  /** The entities that have an allow-list. */
  datatype Entity =
    | Student | Lecturer | User | Level | TeacherLevel | Program
    | Price | Course | Class | Grade | Report | CourseFiles

  /** The fields a body may set, per entity. */
  function Allowed(e: Entity): (r: seq<string>)
    // the fields the grade and course handlers require can pass the filter
    ensures e == Grade ==> "test_type" in r
    ensures e == Course ==> "title" in r
    // a grade body never re-keys the grade, a course body never the course
    ensures e == Grade ==> "gradeid" !in r
    ensures e == Course ==> "courseid" !in r
  {
    match e
    case Student => ["fullname", "gender", "birthdate", "birthplace", "address", "phone",
                     "parentname", "parentphone", "photo", "classid", "programid", "levelid", "is_active"]
    case Lecturer => ["fullname", "gender", "birthdate", "birthplace", "address", "phone",
                      "photo", "classid", "lasteducation"]
    case User => ["username", "email", "password", "roleid", "is_active"]
    case Level => ["name", "description"]
    case TeacherLevel => ["levelid", "lecturerid"]
    case Program => ["name", "description"]
    case Price => ["levelid", "programid", "harga"]
    case Course => ["title", "upload_date", "video_link", "description", "classid", "course_code"]
    case Class => ["levelid", "class_code", "description", "lecturerid"]
    case Grade => ["studentid", "test_type", "listening_score", "reading_score",
                   "speaking_score", "writing_score", "final_score", "description", "date_taken"]
    case Report => ["studentid", "test_type", "grade_id", "report_code", "upload_date"]
    case CourseFiles => ["courseid", "path", "url"]
  }

  /** What the sanitizer does with one present field value: `None` skips the
      field, `Some(w)` stores `w`. */
  function Clean(v: Json): Option<Json> {
    match v
    case JUndefined => None
    case JNull => Some(JNull)
    case JStr(s) => if Text.Trim(s) == [] then Some(JNull) else Some(v)
    case JNum(_) => Some(v)
    case JBool(_) => Some(v)
    case JArr(_) => None
    case JObj(_) => None
  }

  /** The values that survive sanitizing: null and the scalars. */
  predicate Scalar(v: Json) {
    v.JNull? || v.JStr? || v.JNum? || v.JBool?
  }

  /** A blank string becomes null; every other value stays as it is. */
  function BlankToNull(v: Json): Json {
    if v.JStr? && Text.IsBlank(v.s) then JNull else v
  }

  lemma CleanIsBlankToNull(v: Json)
    ensures Clean(v).Some? <==> Scalar(v)
    ensures Clean(v).Some? ==> Clean(v).value == BlankToNull(v)
  {
    match v
    case JStr(s) =>
      Text.TrimEmptyIffBlank(s);
      assert Clean(v) == (if Text.Trim(s) == [] then Some(JNull) else Some(v));
      assert BlankToNull(v) == (if Text.IsBlank(s) then JNull else v);
    case _ =>
  }

  /** `sanitize(input, allowedFields)`: the allowed fields of `input` whose
      value is null or a scalar, blank strings turned into null. */
  function Sanitized(input: map<string, Json>, allowed: seq<string>): (r: map<string, Json>)
    ensures forall f :: f in r ==> f in allowed && f in input
    ensures forall f :: f in allowed && f in input ==> (f in r <==> Scalar(input[f]))
    ensures forall f :: f in r ==> r[f] == BlankToNull(input[f])
  {
    var r := map f | f in allowed && f in input && Clean(input[f]).Some? :: Clean(input[f]).value;
    assert forall f :: f in input ==> (Clean(input[f]).Some? <==> Scalar(input[f]))
                                      && (Clean(input[f]).Some? ==> Clean(input[f]).value == BlankToNull(input[f])) by {
      forall f | f in input
        ensures Clean(input[f]).Some? <==> Scalar(input[f])
        ensures Clean(input[f]).Some? ==> Clean(input[f]).value == BlankToNull(input[f])
      {
        CleanIsBlankToNull(input[f]);
      }
    }
    r
  }

  /** The loop of `sanitize`, field by field in allow-list order. */
  method Sanitize(input: map<string, Json>, allowed: seq<string>) returns (r: map<string, Json>)
    ensures r == Sanitized(input, allowed)
  {
    r := map[];
    var k := 0;
    while k < |allowed|
      invariant 0 <= k <= |allowed|
      invariant r == Sanitized(input, allowed[..k])
    {
      var field := allowed[k];
      ghost var before := r;
      if field in input {
        var value := input[field];
        if value == JUndefined {
        } else if value == JNull {
          r := r[field := JNull];
        } else if value.JStr? {
          r := r[field := if Text.Trim(value.s) == [] then JNull else value];
        } else if value.JNum? || value.JBool? {
          r := r[field := value];
        }
      }
      assert allowed[..k + 1] == allowed[..k] + [field];
      SanitizedStep(input, allowed[..k], field, before, r);
      k := k + 1;
    }
    assert allowed[..|allowed|] == allowed;
  }

  /** Sanitizing one more field extends the result by that field alone. */
  lemma SanitizedStep(input: map<string, Json>, done: seq<string>, field: string,
                      before: map<string, Json>, after: map<string, Json>)
    requires before == Sanitized(input, done)
    requires field in input && Clean(input[field]).Some? ==> after == before[field := Clean(input[field]).value]
    requires !(field in input && Clean(input[field]).Some?) ==> after == before
    ensures after == Sanitized(input, done + [field])
  {
    var next := Sanitized(input, done + [field]);
    if field in input {
      CleanIsBlankToNull(input[field]);
    }
    assert after.Keys == next.Keys;
  }

  /** The exported sanitizers (`createSanitizer`): anything but a plain
      object sanitizes to the empty map. */
  function SanitizeBody(e: Entity, body: Json): (r: map<string, Json>)
    ensures !body.JObj? ==> r == map[]
    ensures forall f :: f in r ==> f in Allowed(e)
    ensures body.JObj? ==> r == Sanitized(body.fields, Allowed(e))
  {
    if body.JObj? then Sanitized(body.fields, Allowed(e)) else map[]
  }

  /** Sanitizing an already sanitized map changes nothing. */
  lemma SanitizeIdempotent(input: map<string, Json>, allowed: seq<string>)
    ensures Sanitized(Sanitized(input, allowed), allowed) == Sanitized(input, allowed)
  {
    var once := Sanitized(input, allowed);
    var twice := Sanitized(once, allowed);
    forall f | f in once
      ensures f in twice && twice[f] == once[f]
    {
      assert Scalar(once[f]);
    }
    assert twice.Keys == once.Keys;
  }

  /** `payload[key]` after sanitizing, undefined when the field was dropped. */
  function Field(m: map<string, Json>, key: string): Json {
    if key in m then m[key] else JUndefined
  }

  /** The body carries a value for `key` that the required-field checks
      accept: a non-blank string, a non-zero number or `true`. */
  predicate Supplies(body: Json, key: string) {
    && body.JObj?
    && key in body.fields
    && match body.fields[key]
       case JStr(s) => !Text.IsBlank(s)
       case JNum(n) => n != 0
       case JBool(b) => b
       case _ => false
  }

  /** `!!sanitize(body)[key]`: the value a required-field check tests. */
  function Provides(e: Entity, body: Json, key: string): (b: bool)
    requires key in Allowed(e)
    ensures b <==> Supplies(body, key)
  {
    RequiredFieldCheck(e, body, key);
    Truthy(Field(SanitizeBody(e, body), key))
  }

  /** A required-field check on the sanitized body (`if (!insert.title)`)
      passes exactly when the raw body supplies that field. */
  lemma RequiredFieldCheck(e: Entity, body: Json, key: string)
    requires key in Allowed(e)
    ensures Truthy(Field(SanitizeBody(e, body), key)) <==> Supplies(body, key)
  {
    if body.JObj? && key in body.fields {
      var v := body.fields[key];
      if v.JStr? && !Text.IsBlank(v.s) {
        assert v.s != [];
      }
    }
  }
}

=== FILE: report_files.dfy ===
/** The read-only report-file handlers (src/controllers/report_files.js). */
module ReportFiles {
  import opened Maybe
  import opened Js
  import opened Http
  import Text

  /** `getAll`: every report file. */
  function GetAll(answer: Answers): (h: Handled)
    ensures h.calls == [DbSelect("tbreport_files", None)]
    ensures h.response.status == 200 <==> answer(h.calls[0]).Ok?
    ensures h.response.status == 200 ==> Member(h.response, "data") == answer(h.calls[0]).value
    ensures h.response.status != 200 ==> MessageOf(h.response) == JStr("Error fetching report")
  {
    Fetch(DbSelect("tbreport_files", None), "Error fetching report", answer)
  }

  /** An error message that, lower-cased, contains "no rows". */
  ghost predicate MentionsNoRows(message: Json) {
    message.JStr? && Text.Occurs("no rows", Text.Lower(message.s))
  }

  /** `error.code === 'PGRST116' || error.message?.toLowerCase().includes('no rows')`:
      `Ok(b)` is the test's value; a message that is neither a string nor
      null/undefined has no `toLowerCase` and the test throws. */
  function IsNotFound(e: Failure): (r: Result<bool>)
    ensures r.Err? <==> !StrictEquals(e.code, JStr("PGRST116")) && !Nullish(e.message) && !e.message.JStr?
    ensures r.Ok? ==> (r.value <==> e.code == JStr("PGRST116") || MentionsNoRows(e.message))
  {
    if StrictEquals(e.code, JStr("PGRST116")) then Ok(true)
    else
      match e.message
      case JUndefined => Ok(false)
      case JNull => Ok(false)
      case JStr(s) =>
        Text.IncludesIffOccurs(Text.Lower(s), "no rows");
        Ok(Text.Includes(Text.Lower(s), "no rows"))
      case _ => Err(TypeError("error.message?.toLowerCase is not a function"))
  }

  /** `getById`: the report file with the given `rfid`; the no-row error of a
      single-row read becomes a 404. */
  function GetById(id: Json, answer: Answers): (h: Handled)
    ensures h.calls == [DbSelect("tbreport_files", Some(Eq("rfid", id)))]
    ensures h.response.status == 200 <==> answer(h.calls[0]).Ok?
    ensures answer(h.calls[0]).Ok? ==> h.response == Succeed(200, "data", answer(h.calls[0]).value)
    // 404 exactly for the no-row error, by code or by message
    ensures h.response.status == 404 <==>
              && answer(h.calls[0]).Err?
              && (answer(h.calls[0]).failure.code == JStr("PGRST116")
                  || MentionsNoRows(answer(h.calls[0]).failure.message))
    ensures h.response.status == 404 ==> h.response == Refuse(404, "Report not found")
    // every other error is a 500 that carries the query's own error message,
    // unless the message could not be inspected
    ensures h.response.status in {200, 404, 500}
    ensures h.response.status == 500 && IsNotFound(answer(h.calls[0]).failure).Ok? ==>
              h.response == Crash("Error fetching report", answer(h.calls[0]).failure)
    ensures h.response.status == 500 ==> MessageOf(h.response) == JStr("Error fetching report")
  {
    var c := DbSelect("tbreport_files", Some(Eq("rfid", id)));
    match answer(c)
    case Ok(data) => Handled(Succeed(200, "data", data), [c])
    case Err(e) =>
      match IsNotFound(e)
      case Err(thrown) => Handled(Crash("Error fetching report", thrown), [c])
      case Ok(notFound) =>
        if notFound then Handled(Refuse(404, "Report not found"), [c])
        else Handled(Crash("Error fetching report", e), [c])
  }

  /** The message test ignores case: "No Rows" matches like "no rows". */
  lemma NotFoundIgnoresCase(prefix: string, suffix: string)
    ensures IsNotFound(Failure(JUndefined, JStr(prefix + "No Rows" + suffix))) == Ok(true)
  {
    var s := prefix + "No Rows" + suffix;
    var low := Text.Lower(s);
    assert low[|prefix|..|prefix| + 7] == "no rows";
    assert Text.OccursAt("no rows", low, |prefix|);
  }
}

=== FILE: reports.dfy ===
/** The single-slot report attachment manager (src/models/reports.js): writes
    a grade's `tbreport_files` row and its stored object in the `reports`
    bucket when a report file is attached, replaced or removed. */
module Reports {
  import opened Maybe
  import opened Js
  import Text

  /** A `tbreport_files` row. */
  datatype ReportRow = ReportRow(gradeid: Json, studentid: Json, path: Json, url: Json)

  /** The state of both backends: the table's rows, and the object paths
      present in each storage bucket. */
  datatype Store = Store(rows: seq<ReportRow>, objects: map<string, set<string>>)

  /** The object paths present in `bucket`. */
  function Objects(st: Store, bucket: string): set<string> {
    if bucket in st.objects then st.objects[bucket] else {}
  }

  /** How one storage call turned out. */
  datatype StorageEffect =
    | Done                      // performed
    | Refused(failure: Failure) // not performed, error handed back as a value
    | Raised(failure: Failure)  // not performed, error thrown

  /** The answers the backends give during one manager operation. */
  datatype Outcomes = Outcomes(
    lookup: Option<Failure>,   // the select of the grade's existing rows fails
    remove: StorageEffect,     // removing the old object
    upload: StorageEffect,     // storing the new object
    publicUrl: Result<Json>,   // the public URL of the new object
    write: Option<Failure>)    // the row insert or update fails

  /** One backend call, in the order the manager makes them. */
  datatype Step =
    | Lookup(gradeid: Json)
    | Remove(bucket: string, target: Json)
    | Upload(bucket: string, path: string)
    | GetUrl(bucket: string, path: string)
    | InsertRow(row: ReportRow)
    | UpdateRows(gradeid: Json, path: string, url: Json)

  /** The state after an operation, what it resolves to (or throws), and the
      calls it made. */
  datatype Transition = Transition(store: Store, result: Result<ReportRow>, steps: seq<Step>)

  // ---------------------------------------------------------------------------
  // Storage keys
  // ---------------------------------------------------------------------------

  /** The timestamp part of a key: fixed when NODE_ENV is `test`, the clock
      reading otherwise. */
  function Stamp(nodeEnv: Option<string>, now: nat): string {
    if nodeEnv == Some("test") then "1234567890" else Text.NatToText(now)
  }

  /** `${studentid}/${test_type}_${stamp}` */
  function ReportPath(studentid: Json, testType: Json, stamp: string): string {
    ToText(studentid) + "/" + ToText(testType) + "_" + stamp
  }

  /** Two keys built for the same student and test type coincide exactly
      when the clock readings do, or when NODE_ENV is `test`. */
  lemma PathUniqueness(nodeEnv: Option<string>, studentid: Json, testType: Json, now1: nat, now2: nat)
    ensures ReportPath(studentid, testType, Stamp(nodeEnv, now1)) == ReportPath(studentid, testType, Stamp(nodeEnv, now2))
            <==> (nodeEnv == Some("test") || now1 == now2)
  {
    var prefix := ToText(studentid) + "/" + ToText(testType) + "_";
    var p1 := ReportPath(studentid, testType, Stamp(nodeEnv, now1));
    var p2 := ReportPath(studentid, testType, Stamp(nodeEnv, now2));
    if nodeEnv != Some("test") && p1 == p2 {
      assert p1 == prefix + Text.NatToText(now1);
      assert p2 == prefix + Text.NatToText(now2);
      assert Text.NatToText(now1) == p1[|prefix|..];
      assert Text.NatToText(now2) == p2[|prefix|..];
      Text.NatToTextInjective(now1, now2);
    }
  }

  // ---------------------------------------------------------------------------
  // Table and bucket helpers
  // ---------------------------------------------------------------------------

  /** The rows of `rows` whose grade is `gradeid`, in table order. */
  function RowsOf(rows: seq<ReportRow>, gradeid: Json): (r: seq<ReportRow>)
    ensures forall k :: 0 <= k < |r| ==> r[k] in rows && r[k].gradeid == gradeid
    ensures (exists k :: 0 <= k < |rows| && rows[k].gradeid == gradeid) <==> |r| > 0
  {
    if |rows| == 0 then []
    else
      var rest := RowsOf(rows[1..], gradeid);
      assert forall k :: 1 <= k < |rows| ==> rows[k] == rows[1..][k - 1];
      if rows[0].gradeid == gradeid then [rows[0]] + rest else rest
  }

  /** The lookup is the order-preserving filter: a table read in two parts
      yields the first part's rows of the grade, then the second part's. */
  lemma {:induction false} RowsOfConcat(a: seq<ReportRow>, b: seq<ReportRow>, gradeid: Json)
    ensures RowsOf(a + b, gradeid) == RowsOf(a, gradeid) + RowsOf(b, gradeid)
    decreases |a|
  {
    if |a| > 0 {
      assert (a + b)[1..] == a[1..] + b;
      RowsOfConcat(a[1..], b, gradeid);
    } else {
      assert a + b == b;
    }
  }

  /** Every row of the grade comes back. */
  lemma RowsOfComplete(rows: seq<ReportRow>, gradeid: Json, k: nat)
    requires k < |rows| && rows[k].gradeid == gradeid
    ensures rows[k] in RowsOf(rows, gradeid)
  {
    assert rows == rows[..k] + [rows[k]] + rows[k + 1..];
    RowsOfConcat(rows[..k] + [rows[k]], rows[k + 1..], gradeid);
    RowsOfConcat(rows[..k], [rows[k]], gradeid);
    RowsOfSingle(rows[k], gradeid);
  }

  /** A single row comes back exactly when it belongs to the grade. */
  lemma RowsOfSingle(row: ReportRow, gradeid: Json)
    ensures RowsOf([row], gradeid) == (if row.gradeid == gradeid then [row] else [])
  {
    assert [row][1..] == [];
  }

  /** At most one row per grade: the single-slot invariant. */
  predicate SingleSlot(rows: seq<ReportRow>) {
    forall i, j :: 0 <= i < j < |rows| ==> rows[i].gradeid != rows[j].gradeid
  }

  /** `update({ path, url }).eq('gradeid', gradeid)` */
  function Repath(rows: seq<ReportRow>, gradeid: Json, path: string, url: Json): seq<ReportRow> {
    seq(|rows|, i requires 0 <= i < |rows| =>
      if rows[i].gradeid == gradeid then rows[i].(path := JStr(path), url := url) else rows[i])
  }

  function WithObjects(st: Store, bucket: string, paths: set<string>): Store {
    st.(objects := st.objects[bucket := paths])
  }

  /** A storage remove of `path`: only a string path names an object. */
  function RemoveObject(st: Store, bucket: string, path: Json, effect: StorageEffect): Result<Store> {
    match effect
    case Done => Ok(if path.JStr? then WithObjects(st, bucket, Objects(st, bucket) - {path.s}) else st)
    case Refused(_) => Ok(st)
    case Raised(f) => Err(f)
  }

  /** A storage upload to `path`. */
  function UploadObject(st: Store, bucket: string, path: string, effect: StorageEffect): Result<Store> {
    match effect
    case Done => Ok(WithObjects(st, bucket, Objects(st, bucket) + {path}))
    case Refused(_) => Ok(st)
    case Raised(f) => Err(f)
  }

  // ---------------------------------------------------------------------------
  // createOrReplace
  // ---------------------------------------------------------------------------

  /** The old object `createOrReplace` removes: the path of the grade's first
      row, when that path is truthy. */
  function OldPath(existing: seq<ReportRow>): Option<Json> {
    if |existing| > 0 && Truthy(existing[0].path) then Some(existing[0].path) else None
  }

  /** Every upload in `steps` writes `path`, and no removal comes after it. */
  predicate UploadsLast(steps: seq<Step>, path: string) {
    forall k :: 0 <= k < |steps| && steps[k].Upload? ==>
      steps[k].path == path && forall j :: k < j < |steps| ==> !steps[j].Remove?
  }

  /** `createOrReplace(data, file, bucket)`: attach a report to the grade
      `data`, replacing the object of its existing row if it has one. */
  function CreateOrReplace(st: Store, data: Json, bucket: string, nodeEnv: Option<string>,
                           now: nat, out: Outcomes): (t: Transition)
    // reading `data.gradeid` of a missing grade throws before any call
    ensures Nullish(data) ==> t.result.Err? && t.store == st && t.steps == []
    // a failed lookup throws before any storage or row write
    ensures !Nullish(data) && out.lookup.Some? ==>
              t == Transition(st, Err(out.lookup.value), [Lookup(Get(data, "gradeid"))])
    // the first call is the lookup; an old object is removed before the upload
    ensures !Nullish(data) ==> |t.steps| >= 1 && t.steps[0] == Lookup(Get(data, "gradeid"))
    ensures !Nullish(data) && out.lookup.None? ==>
              var prior := OldPath(RowsOf(st.rows, Get(data, "gradeid")));
              prior.Some? ==> |t.steps| >= 2 && t.steps[1] == Remove(bucket, prior.value)
    ensures UploadsLast(t.steps, ReportPath(Get(data, "studentid"), Get(data, "test_type"), Stamp(nodeEnv, now)))
    // rows change only on success
    ensures t.result.Err? ==> t.store.rows == st.rows
    ensures t.result.Ok? ==> !Nullish(data) && out.lookup.None? && out.write.None?
  {
    if Nullish(data) then
      Transition(st, Err(Prop(data, "gradeid").failure), [])
    else
      var gradeid := Get(data, "gradeid");
      if out.lookup.Some? then
        Transition(st, Err(out.lookup.value), [Lookup(gradeid)])
      else
        var existing := RowsOf(st.rows, gradeid);
        var prior := OldPath(existing);
        var removed := if prior.Some? then RemoveObject(st, bucket, prior.value, out.remove) else Ok(st);
        var steps := [Lookup(gradeid)] + (if prior.Some? then [Remove(bucket, prior.value)] else []);
        if removed.Err? then
          Transition(st, Err(removed.failure), steps)
        else
          var path := ReportPath(Get(data, "studentid"), Get(data, "test_type"), Stamp(nodeEnv, now));
          var uploaded := UploadObject(removed.value, bucket, path, out.upload);
          var steps := steps + [Upload(bucket, path)];
          if uploaded.Err? then
            Transition(removed.value, Err(uploaded.failure), steps)
          else
            var st2 := uploaded.value;
            var steps := steps + [GetUrl(bucket, path)];
            match out.publicUrl
            case Err(f) => Transition(st2, Err(f), steps)
            case Ok(url) =>
              if |existing| == 0 then
                var row := ReportRow(gradeid, Get(data, "studentid"), JStr(path), url);
                var steps := steps + [InsertRow(row)];
                if out.write.Some? then Transition(st2, Err(out.write.value), steps)
                else Transition(st2.(rows := st2.rows + [row]), Ok(row), steps)
              else
                var steps := steps + [UpdateRows(gradeid, path, url)];
                if out.write.Some? then Transition(st2, Err(out.write.value), steps)
                else Transition(st2.(rows := Repath(st2.rows, gradeid, path, url)),
                                Ok(existing[0].(path := JStr(path), url := url)), steps)
  }


  /** With no row for the grade, a successful call inserts exactly one row
      carrying the new key and URL, and returns it. */
  lemma CreateOrReplaceInserts(st: Store, data: Json, bucket: string, nodeEnv: Option<string>,
                               now: nat, out: Outcomes)
    requires !Nullish(data) && RowsOf(st.rows, Get(data, "gradeid")) == []
    requires out.lookup.None? && out.upload.Done? && out.publicUrl.Ok? && out.write.None?
    ensures var t := CreateOrReplace(st, data, bucket, nodeEnv, now, out);
            var path := ReportPath(Get(data, "studentid"), Get(data, "test_type"), Stamp(nodeEnv, now));
            var row := ReportRow(Get(data, "gradeid"), Get(data, "studentid"), JStr(path), out.publicUrl.value);
            && t.result == Ok(row)
            && t.store.rows == st.rows + [row]
            && path in Objects(t.store, bucket)
            && t.steps == [Lookup(Get(data, "gradeid")), Upload(bucket, path), GetUrl(bucket, path), InsertRow(row)]
  {
  }

  /** With rows for the grade, a successful call inserts nothing: those rows
      get the new key and URL, every other row is untouched, and the old
      object has been removed from the bucket unless the new key equals it. */
  lemma CreateOrReplaceUpdates(st: Store, data: Json, bucket: string, nodeEnv: Option<string>,
                               now: nat, out: Outcomes)
    requires !Nullish(data) && RowsOf(st.rows, Get(data, "gradeid")) != []
    requires out.lookup.None? && out.remove.Done? && out.upload.Done? && out.publicUrl.Ok? && out.write.None?
    ensures var t := CreateOrReplace(st, data, bucket, nodeEnv, now, out);
            var gradeid := Get(data, "gradeid");
            var path := ReportPath(Get(data, "studentid"), Get(data, "test_type"), Stamp(nodeEnv, now));
            var first := RowsOf(st.rows, gradeid)[0];
            && t.result == Ok(first.(path := JStr(path), url := out.publicUrl.value))
            && |t.store.rows| == |st.rows|
            && (forall k :: 0 <= k < |st.rows| && st.rows[k].gradeid != gradeid ==> t.store.rows[k] == st.rows[k])
            && (forall k :: 0 <= k < |st.rows| && st.rows[k].gradeid == gradeid ==>
                  t.store.rows[k] == st.rows[k].(path := JStr(path), url := out.publicUrl.value))
            && path in Objects(t.store, bucket)
            && (first.path.JStr? && first.path.s != [] && first.path.s != path ==> first.path.s !in Objects(t.store, bucket))
  {
  }

  /** The table after a successful `createOrReplace`: one new row for a grade
      without rows, otherwise the grade's rows rewritten in place. */
  lemma CreateOrReplaceRows(st: Store, data: Json, bucket: string, nodeEnv: Option<string>,
                            now: nat, out: Outcomes)
    ensures var t := CreateOrReplace(st, data, bucket, nodeEnv, now, out);
            var gradeid := Get(data, "gradeid");
            var path := ReportPath(Get(data, "studentid"), Get(data, "test_type"), Stamp(nodeEnv, now));
            t.result.Ok? ==>
              && out.publicUrl.Ok?
              && (RowsOf(st.rows, gradeid) == [] ==>
                    t.store.rows == st.rows + [ReportRow(gradeid, Get(data, "studentid"), JStr(path), out.publicUrl.value)])
              && (RowsOf(st.rows, gradeid) != [] ==>
                    t.store.rows == Repath(st.rows, gradeid, path, out.publicUrl.value))
  {
  }

  /** `createOrReplace` keeps at most one row per grade, and after a
      successful call the grade has exactly one row. */
  lemma {:induction false} CreateOrReplaceKeepsSingleSlot(st: Store, data: Json, bucket: string,
                                                          nodeEnv: Option<string>, now: nat, out: Outcomes)
    requires SingleSlot(st.rows)
    ensures var t := CreateOrReplace(st, data, bucket, nodeEnv, now, out);
            && SingleSlot(t.store.rows)
            && (t.result.Ok? ==> |RowsOf(t.store.rows, Get(data, "gradeid"))| == 1)
  {
    var t := CreateOrReplace(st, data, bucket, nodeEnv, now, out);
    if t.result.Ok? {
      CreateOrReplaceRows(st, data, bucket, nodeEnv, now, out);
      var gradeid := Get(data, "gradeid");
      var path := ReportPath(Get(data, "studentid"), Get(data, "test_type"), Stamp(nodeEnv, now));
      if RowsOf(st.rows, gradeid) == [] {
        AppendKeepsSingleSlot(st.rows, ReportRow(gradeid, Get(data, "studentid"), JStr(path), out.publicUrl.value));
      } else {
        RepathKeepsSingleSlot(st.rows, gradeid, path, out.publicUrl.value);
      }
    }
  }

  /** Appending a row for a grade that has none keeps the invariant and gives
      that grade exactly one row. */
  lemma AppendKeepsSingleSlot(rows: seq<ReportRow>, row: ReportRow)
    requires SingleSlot(rows) && RowsOf(rows, row.gradeid) == []
    ensures SingleSlot(rows + [row]) && |RowsOf(rows + [row], row.gradeid)| == 1
  {
    var all := rows + [row];
    assert forall k :: 0 <= k < |rows| ==> rows[k].gradeid != row.gradeid;
    assert all[..|all| - 1] == rows;
    OnlyLastRowOf(all, row.gradeid);
  }

  /** Rewriting the rows of a grade that has some keeps the invariant and
      leaves that grade exactly one row. */
  lemma RepathKeepsSingleSlot(rows: seq<ReportRow>, gradeid: Json, path: string, url: Json)
    requires SingleSlot(rows) && RowsOf(rows, gradeid) != []
    ensures SingleSlot(Repath(rows, gradeid, path, url))
    ensures |RowsOf(Repath(rows, gradeid, path, url), gradeid)| == 1
  {
    var after := Repath(rows, gradeid, path, url);
    assert forall k :: 0 <= k < |after| ==> after[k].gradeid == rows[k].gradeid;
    var k :| 0 <= k < |rows| && rows[k].gradeid == gradeid;
    SingleRowOf(after, gradeid, k);
  }

  /** In a single-slot table whose `k`-th row has the grade, that row is the
      grade's only row. */
  lemma {:induction false} SingleRowOf(rows: seq<ReportRow>, gradeid: Json, k: nat)
    requires SingleSlot(rows) && k < |rows| && rows[k].gradeid == gradeid
    ensures RowsOf(rows, gradeid) == [rows[k]]
    decreases |rows|
  {
    assert SingleSlot(rows[1..]) by {
      forall i, j | 0 <= i < j < |rows[1..]| ensures rows[1..][i].gradeid != rows[1..][j].gradeid {
        assert rows[1..][i] == rows[i + 1] && rows[1..][j] == rows[j + 1];
      }
    }
    if k == 0 {
      NoRowOf(rows[1..], gradeid);
    } else {
      assert rows[1..][k - 1] == rows[k];
      SingleRowOf(rows[1..], gradeid, k - 1);
    }
  }

  lemma NoRowOf(rows: seq<ReportRow>, gradeid: Json)
    requires forall k :: 0 <= k < |rows| ==> rows[k].gradeid != gradeid
    ensures RowsOf(rows, gradeid) == []
  {
  }

  /** A table whose only row for the grade is the last one. */
  lemma OnlyLastRowOf(rows: seq<ReportRow>, gradeid: Json)
    requires |rows| > 0 && rows[|rows| - 1].gradeid == gradeid
    requires SingleSlot(rows[..|rows| - 1])
    requires forall k :: 0 <= k < |rows| - 1 ==> rows[k].gradeid != gradeid
    ensures SingleSlot(rows)
    ensures |RowsOf(rows, gradeid)| == 1
  {
    SingleRowOf(rows, gradeid, |rows| - 1);
  }

  /** Replacing twice in a row leaves the grade with one row, carrying the
      key and URL of the second call. */
  lemma ReplaceTwice(st: Store, data: Json, bucket: string, nodeEnv: Option<string>,
                     now1: nat, out1: Outcomes, now2: nat, out2: Outcomes)
    requires SingleSlot(st.rows) && !Nullish(data)
    requires out1.lookup.None? && out1.upload.Done? && out1.publicUrl.Ok? && out1.write.None?
    requires out2.lookup.None? && out2.upload.Done? && out2.publicUrl.Ok? && out2.write.None?
    requires out1.remove.Done? && out2.remove.Done?
    ensures var t1 := CreateOrReplace(st, data, bucket, nodeEnv, now1, out1);
            var t2 := CreateOrReplace(t1.store, data, bucket, nodeEnv, now2, out2);
            var path2 := ReportPath(Get(data, "studentid"), Get(data, "test_type"), Stamp(nodeEnv, now2));
            && SingleSlot(t2.store.rows)
            && |RowsOf(t2.store.rows, Get(data, "gradeid"))| == 1
            && RowsOf(t2.store.rows, Get(data, "gradeid"))[0].path == JStr(path2)
            && RowsOf(t2.store.rows, Get(data, "gradeid"))[0].url == out2.publicUrl.value
            && |t2.store.rows| == |t1.store.rows|
  {
    var gradeid := Get(data, "gradeid");
    CreateOrReplaceKeepsSingleSlot(st, data, bucket, nodeEnv, now1, out1);
    var t1 := CreateOrReplace(st, data, bucket, nodeEnv, now1, out1);
    CreateOrReplaceKeepsSingleSlot(t1.store, data, bucket, nodeEnv, now2, out2);
    CreateOrReplaceUpdates(t1.store, data, bucket, nodeEnv, now2, out2);
    var t2 := CreateOrReplace(t1.store, data, bucket, nodeEnv, now2, out2);
    var rows := t2.store.rows;
    var k :| 0 <= k < |t1.store.rows| && t1.store.rows[k].gradeid == gradeid;
    SingleRowOf(rows, gradeid, k);
  }

  // ---------------------------------------------------------------------------
  // create
  // ---------------------------------------------------------------------------

  /** `create(data, file, bucket)`: upload under a clock-stamped key and insert
      a row, without looking at the grade's existing rows. */
  function Create(st: Store, data: Json, file: Json, bucket: string, now: nat, out: Outcomes): (t: Transition)
    // never looks up existing rows and never removes an object
    ensures forall k :: 0 <= k < |t.steps| ==> !t.steps[k].Lookup? && !t.steps[k].Remove?
    // the insert comes after the upload
    ensures forall k :: 0 <= k < |t.steps| && t.steps[k].InsertRow? ==> k == 2 && t.steps[0].Upload?
    ensures t.result.Err? ==> t.store.rows == st.rows
    // a failed insert leaves the uploaded object in the bucket
    ensures !Nullish(data) && !Nullish(file) && out.upload.Done? && out.publicUrl.Ok? && out.write.Some? ==>
              t.result.Err? && ReportPath(Get(data, "studentid"), Get(data, "test_type"), Text.NatToText(now)) in Objects(t.store, bucket)
    // a missing grade or file throws before any call
    ensures Nullish(data) || Nullish(file) ==> t.result.Err? && t.store == st && t.steps == []
    // it succeeds exactly when the upload does not throw and the URL lookup
    // and the insert succeed; the row it appends carries the grade, the
    // student, the new key and the public URL
    ensures t.result.Ok? <==>
              !Nullish(data) && !Nullish(file) && !out.upload.Raised? && out.publicUrl.Ok? && out.write.None?
    ensures t.result.Ok? ==>
              var path := ReportPath(Get(data, "studentid"), Get(data, "test_type"), Text.NatToText(now));
              var row := ReportRow(Get(data, "gradeid"), Get(data, "studentid"), JStr(path), out.publicUrl.value);
              t.result.value == row && t.steps == [Upload(bucket, path), GetUrl(bucket, path), InsertRow(row)]
    // a successful call appends exactly one row
    ensures t.result.Ok? ==> t.store.rows == st.rows + [t.result.value]
                             && t.result.value.gradeid == Get(data, "gradeid")
                             && t.result.value.path == JStr(ReportPath(Get(data, "studentid"), Get(data, "test_type"), Text.NatToText(now)))
  {
    if Nullish(data) then
      Transition(st, Err(Prop(data, "studentid").failure), [])
    else
      var path := ReportPath(Get(data, "studentid"), Get(data, "test_type"), Text.NatToText(now));
      if Nullish(file) then
        Transition(st, Err(Prop(file, "buffer").failure), [])
      else
        var uploaded := UploadObject(st, bucket, path, out.upload);
        if uploaded.Err? then
          Transition(st, Err(uploaded.failure), [Upload(bucket, path)])
        else
          var st2 := uploaded.value;
          var steps := [Upload(bucket, path), GetUrl(bucket, path)];
          match out.publicUrl
          case Err(f) => Transition(st2, Err(f), steps)
          case Ok(url) =>
            var row := ReportRow(Get(data, "gradeid"), Get(data, "studentid"), JStr(path), url);
            if out.write.Some? then Transition(st2, Err(out.write.value), steps + [InsertRow(row)])
            else Transition(st2.(rows := st2.rows + [row]), Ok(row), steps + [InsertRow(row)])
  }

  /** `create` does not keep the single-slot invariant: a second report for a
      grade that already has one is inserted beside it. */
  lemma CreateBreaksSingleSlot()
    ensures var row := ReportRow(JNum(1), JNum(7), JStr("7/mid_1"), JStr("u1"));
            var st := Store([row], map[]);
            var data := JObj(map["gradeid" := JNum(1), "studentid" := JNum(7), "test_type" := JStr("mid")]);
            var out := Outcomes(None, Done, Done, Ok(JStr("u2")), None);
            var t := Create(st, data, JObj(map[]), "reports", 2, out);
            SingleSlot(st.rows) && t.result.Ok? && !SingleSlot(t.store.rows)
  {
    var row := ReportRow(JNum(1), JNum(7), JStr("7/mid_1"), JStr("u1"));
    var st := Store([row], map[]);
    var data := JObj(map["gradeid" := JNum(1), "studentid" := JNum(7), "test_type" := JStr("mid")]);
    var out := Outcomes(None, Done, Done, Ok(JStr("u2")), None);
    var t := Create(st, data, JObj(map[]), "reports", 2, out);
    assert t.store.rows[0].gradeid == t.store.rows[1].gradeid;
  }

  // ---------------------------------------------------------------------------
  // delete
  // ---------------------------------------------------------------------------

  /** The state after `delete`, and what it resolves to: `None`, the error the
      storage handed back, or the error thrown. */
  datatype Removal = Removal(store: Store, result: Result<Option<Failure>>, steps: seq<Step>)

  /** `delete(file, bucket)`: remove `file.path` from the bucket. */
  function Delete(st: Store, file: Json, bucket: string, effect: StorageEffect): (t: Removal)
    // the table is never touched
    ensures t.store.rows == st.rows
    // only the bucket named, and only the object at `file.path`
    ensures forall b :: b != bucket ==> Objects(t.store, b) == Objects(st, b)
    ensures Objects(t.store, bucket) <= Objects(st, bucket)
    ensures forall p :: p in Objects(st, bucket) - Objects(t.store, bucket) ==> Get(file, "path") == JStr(p)
    ensures !Nullish(file) && effect.Done? && Get(file, "path").JStr? ==> Get(file, "path").s !in Objects(t.store, bucket)
    // a storage error is returned, not thrown
    ensures !Nullish(file) && effect.Refused? ==> t.result == Ok(Some(effect.failure))
    ensures t.result.Err? <==> Nullish(file) || effect.Raised?
  {
    if Nullish(file) then
      Removal(st, Err(Prop(file, "path").failure), [])
    else
      var path := Get(file, "path");
      var steps := [Remove(bucket, path)];
      match effect
      case Done => Removal(RemoveObject(st, bucket, path, Done).value, Ok(None), steps)
      case Refused(f) => Removal(st, Ok(Some(f)), steps)
      case Raised(f) => Removal(st, Err(f), steps)
  }
}

=== FILE: text.dfy ===
/** The string operations of the JavaScript runtime that the handlers rely on:
    `trim`, `toLowerCase`, `includes`, `split(' ')`, rendering of integers as
    decimal text and `parseInt(s, 10)`. */
module Text {
  import opened Maybe

  // ---------------------------------------------------------------------------
  // Whitespace and trim
  // ---------------------------------------------------------------------------

  /** The characters ECMAScript counts as WhiteSpace or LineTerminator; both
      `String.prototype.trim` and `parseInt` skip exactly these. */
  predicate IsSpace(c: char) {
    || c == '\t' || c == '\n' || c == '\U{000B}' || c == '\U{000C}' || c == '\r' || c == ' '
    || c == '\U{00A0}' || c == '\U{1680}' || ('\U{2000}' <= c <= '\U{200A}')
    || c == '\U{2028}' || c == '\U{2029}' || c == '\U{202F}' || c == '\U{205F}'
    || c == '\U{3000}' || c == '\U{FEFF}'
  }

  /** Every character of `s` is whitespace (vacuously true of ""). */
  predicate IsBlank(s: string) {
    forall i :: 0 <= i < |s| ==> IsSpace(s[i])
  }

  /** `s` without its leading whitespace. */
  function TrimStart(s: string): (r: string)
    ensures |r| <= |s| && r == s[|s| - |r|..]
    ensures IsBlank(s[..|s| - |r|])
    ensures r == [] || !IsSpace(r[0])
    decreases |s|
  {
    if |s| > 0 && IsSpace(s[0]) then
      var t := s[1..];
      var r := TrimStart(t);
      assert r == s[|s| - |r|..];
      var dropped := s[..|s| - |r|];
      assert IsBlank(dropped) by {
        forall k | 0 <= k < |dropped|
          ensures IsSpace(dropped[k])
        {
          if k > 0 {
            assert dropped[k] == t[..|t| - |r|][k - 1];
          }
        }
      }
      r
    else s
  }

  /** `s` without its trailing whitespace. */
  function TrimEnd(s: string): (r: string)
    ensures |r| <= |s| && r == s[..|r|]
    ensures IsBlank(s[|r|..])
    ensures r == [] || !IsSpace(r[|r| - 1])
    decreases |s|
  {
    if |s| > 0 && IsSpace(s[|s| - 1]) then
      var t := s[..|s| - 1];
      var r := TrimEnd(t);
      assert r == s[..|r|];
      var dropped := s[|r|..];
      assert IsBlank(dropped) by {
        forall k | 0 <= k < |dropped|
          ensures IsSpace(dropped[k])
        {
          if k < |dropped| - 1 {
            assert dropped[k] == t[|r|..][k];
          }
        }
      }
      r
    else s
  }

  /** `s.trim()` */
  function Trim(s: string): string {
    TrimEnd(TrimStart(s))
  }

  /** `s.trim() === ''` holds exactly of the blank strings. */
  lemma TrimEmptyIffBlank(s: string)
    ensures Trim(s) == [] <==> IsBlank(s)
  {
    var t := TrimStart(s);
    if Trim(s) == [] {
      assert IsBlank(t[0..]);
      assert s == s[..|s| - |t|] + t;
    }
  }

  // ---------------------------------------------------------------------------
  // Case folding and substring search
  // ---------------------------------------------------------------------------

  /** `toLowerCase` on one character, for the ASCII letters. */
  function LowerChar(c: char): char {
    if 'A' <= c <= 'Z' then (c as int + 32) as char else c
  }

  /** `s.toLowerCase()`, for the ASCII letters. */
  function Lower(s: string): (r: string)
    ensures |r| == |s|
  {
    seq(|s|, i requires 0 <= i < |s| => LowerChar(s[i]))
  }

  /** `needle` occurs in `hay` starting at position `i`. */
  ghost predicate OccursAt(needle: string, hay: string, i: int) {
    0 <= i <= |hay| - |needle| && hay[i..i + |needle|] == needle
  }

  /** `needle` occurs in `hay` at some position. */
  ghost predicate Occurs(needle: string, hay: string) {
    exists i :: OccursAt(needle, hay, i)
  }

  /** `hay.includes(needle)`, scanning `hay` from the left. */
  function Includes(hay: string, needle: string): bool
    decreases |hay|
  {
    if needle <= hay then true
    else if |hay| == 0 then false
    else Includes(hay[1..], needle)
  }

  /** The scan finds `needle` exactly when it occurs in `hay`. */
  lemma {:induction false} IncludesIffOccurs(hay: string, needle: string)
    ensures Includes(hay, needle) <==> Occurs(needle, hay)
    decreases |hay|
  {
    if needle <= hay {
      assert OccursAt(needle, hay, 0);
    } else if |hay| == 0 {
    } else {
      IncludesIffOccurs(hay[1..], needle);
      if Occurs(needle, hay[1..]) {
        var i :| OccursAt(needle, hay[1..], i);
        assert OccursAt(needle, hay, i + 1);
      }
      if Occurs(needle, hay) {
        var i :| OccursAt(needle, hay, i);
        if i > 0 {
          assert OccursAt(needle, hay[1..], i - 1);
        }
      }
    }
  }

  // ---------------------------------------------------------------------------
  // split(' ')
  // ---------------------------------------------------------------------------

  /** Position of the first space of `s`. */
  function IndexOfSpace(s: string): (i: nat)
    requires ' ' in s
    ensures i < |s| && s[i] == ' ' && ' ' !in s[..i]
  {
    if s[0] == ' ' then 0
    else
      var j := IndexOfSpace(s[1..]);
      assert s[..j + 1] == [s[0]] + s[1..][..j];
      j + 1
  }

  /** `s.split(' ')`: the pieces of `s` between single spaces. */
  function SplitOnSpace(s: string): (parts: seq<string>)
    ensures |parts| >= 1
    ensures forall k :: 0 <= k < |parts| ==> ' ' !in parts[k]
    decreases |s|
  {
    if ' ' !in s then [s]
    else
      var i := IndexOfSpace(s);
      [s[..i]] + SplitOnSpace(s[i + 1..])
  }

  /** `parts.join(' ')` */
  function JoinWithSpace(parts: seq<string>): string
    requires |parts| >= 1
  {
    if |parts| == 1 then parts[0] else parts[0] + " " + JoinWithSpace(parts[1..])
  }

  /** Joining the pieces back with spaces gives the original text. */
  lemma {:induction false} JoinSplit(s: string)
    ensures JoinWithSpace(SplitOnSpace(s)) == s
    decreases |s|
  {
    if ' ' in s {
      var i := IndexOfSpace(s);
      JoinSplit(s[i + 1..]);
      assert s == s[..i] + " " + s[i + 1..];
    }
  }

  /** Splitting space-free pieces joined with spaces gives the pieces back. */
  lemma {:induction false} SplitJoin(parts: seq<string>)
    requires |parts| >= 1
    requires forall k :: 0 <= k < |parts| ==> ' ' !in parts[k]
    ensures SplitOnSpace(JoinWithSpace(parts)) == parts
    decreases |parts|
  {
    if |parts| > 1 {
      var s := JoinWithSpace(parts);
      var rest := JoinWithSpace(parts[1..]);
      assert s == parts[0] + " " + rest;
      assert s[|parts[0]|] == ' ';
      var i := IndexOfSpace(s);
      assert s[..|parts[0]|] == parts[0];
      assert i == |parts[0]|;
      assert s[i + 1..] == rest;
      SplitJoin(parts[1..]);
    } else {
      assert JoinWithSpace(parts) == parts[0];
    }
  }

  // ---------------------------------------------------------------------------
  // Decimal digits
  // ---------------------------------------------------------------------------

  predicate IsDigit(c: char) {
    '0' <= c <= '9'
  }

  predicate AllDigits(s: string) {
    forall i :: 0 <= i < |s| ==> IsDigit(s[i])
  }

  function DigitChar(d: nat): (c: char)
    requires d < 10
    ensures IsDigit(c) && c as int - '0' as int == d
  {
    ('0' as int + d) as char
  }

  /** The decimal rendering of a natural number (`String(n)`), without leading zeros. */
  function NatToText(n: nat): (r: string)
    ensures |r| >= 1 && AllDigits(r)
    ensures r[0] == '0' ==> n == 0
  {
    if n < 10 then [DigitChar(n)] else NatToText(n / 10) + [DigitChar(n % 10)]
  }

  /** `String(n)` for a (safe) integer. */
  function IntToText(n: int): string {
    if n < 0 then "-" + NatToText(-n) else NatToText(n)
  }

  /** The number a string of decimal digits denotes. */
  function DigitsValue(ds: string): nat
    requires AllDigits(ds)
  {
    if |ds| == 0 then 0
    else DigitsValue(ds[..|ds| - 1]) * 10 + (ds[|ds| - 1] as int - '0' as int)
  }

  /** Rendering a number and reading it back gives the number. */
  lemma {:induction false} DigitsValueOfText(n: nat)
    ensures DigitsValue(NatToText(n)) == n
  {
    if n >= 10 {
      var t := NatToText(n);
      DigitsValueOfText(n / 10);
      assert t[..|t| - 1] == NatToText(n / 10);
    }
  }

  /** Distinct numbers render to distinct text. */
  lemma NatToTextInjective(m: nat, n: nat)
    ensures NatToText(m) == NatToText(n) ==> m == n
  {
    DigitsValueOfText(m);
    DigitsValueOfText(n);
  }

  /** The longest prefix of `s` made of decimal digits. */
  function LeadingDigits(s: string): (r: string)
    ensures r <= s && AllDigits(r)
    ensures r == s || !IsDigit(s[|r|])
  {
    if |s| > 0 && IsDigit(s[0]) then [s[0]] + LeadingDigits(s[1..]) else []
  }

  /** `t` without one leading sign character. */
  function Unsigned(t: string): string {
    if |t| > 0 && (t[0] == '-' || t[0] == '+') then t[1..] else t
  }

  /** `parseInt(s, 10)`: skip leading whitespace, read an optional sign and
      the longest run of digits after it; `None` stands for NaN (no digit). */
  function ParseInt10(s: string): Option<int> {
    ParseSigned(TrimStart(s))
  }

  /** `parseInt` on text that starts after the whitespace. */
  function ParseSigned(t: string): Option<int> {
    var negative := |t| > 0 && t[0] == '-';
    var ds := LeadingDigits(Unsigned(t));
    if |ds| == 0 then None
    else
      var v: int := DigitsValue(ds);
      if negative then Some(-v) else Some(v)
  }

  /** A rendered number followed by anything that does not start with a
      digit reads back as that number. */
  lemma ParseSignedRendered(n: nat, post: string)
    requires post == [] || !IsDigit(post[0])
    ensures ParseSigned(NatToText(n) + post) == Some(n)
  {
    var digits := NatToText(n);
    var t := digits + post;
    assert t[0] == digits[0] && IsDigit(t[0]);
    assert Unsigned(t) == t;
    LeadingDigitsOfDigits(digits, post);
    DigitsValueOfText(n);
  }

  /** `parseInt` reads back a rendered number after any leading whitespace,
      ignoring whatever follows it when that does not start with a digit. */
  lemma ParseRendered(pre: string, n: nat, post: string)
    requires IsBlank(pre)
    requires post == [] || !IsDigit(post[0])
    ensures ParseInt10(pre + NatToText(n) + post) == Some(n)
  {
    var t := NatToText(n) + post;
    assert pre + NatToText(n) + post == pre + t;
    assert !IsSpace(t[0]) by {
      assert t[0] == NatToText(n)[0];
    }
    TrimOfBlankPrefix(pre, t);
    ParseSignedRendered(n, post);
  }

  /** `parseInt(String(n), 10) == n` */
  lemma ParseText(n: nat)
    ensures ParseInt10(NatToText(n)) == Some(n)
  {
    var t := NatToText(n);
    assert !IsSpace(t[0]);
    assert TrimStart(t) == t;
    ParseSignedRendered(n, "");
    assert t + "" == t;
  }

  lemma {:induction false} TrimOfBlankPrefix(pre: string, s: string)
    requires IsBlank(pre)
    requires |s| > 0 && !IsSpace(s[0])
    ensures TrimStart(pre + s) == s
    decreases |pre|
  {
    if |pre| == 0 {
      assert pre + s == s;
    } else {
      assert (pre + s)[1..] == pre[1..] + s;
      TrimOfBlankPrefix(pre[1..], s);
    }
  }

  lemma {:induction false} LeadingDigitsOfDigits(ds: string, post: string)
    requires AllDigits(ds)
    requires post == [] || !IsDigit(post[0])
    ensures LeadingDigits(ds + post) == ds
    decreases |ds|
  {
    if |ds| == 0 {
      assert ds + post == post;
    } else {
      assert (ds + post)[1..] == ds[1..] + post;
      LeadingDigitsOfDigits(ds[1..], post);
    }
  }
}
